=== FILE: README.md ===
# Rocket flight and jump-or-die games in Dafny

This project models the per-frame logic of two small pygame games and proves
properties of it.

**The rocket.** It is steered by a learning agent (`rocket-game/stage-1/rocket-game-fit-graph.py`)
or by the keyboard (`rocket-game/rocket-game-manual.py`). The two copies of its
`Rocket` class share every handler. They differ only in `DEFAULT_SPEED` (1 and
0.05) and in how input reaches the flags (action codes 0/1/2 or W/A/D key events).

- `RocketFlight` holds a value snapshot of the rocket (`Flight`), one pure function per handler, and `Tick`, the seven handlers in the order `update` runs them.
- `FlightLaws` proves what several handlers or several ticks do together. This covers the speed bound, the exclusivity of the two deceleration phases, resting on and landing on the floor, and the lean's decay and saturation.
- `Rockets.Rocket` is the object itself. Its methods update its fields in place, line for line as the Python does. Each is proved to leave exactly the snapshot its `RocketFlight` function computes, so every law about the functions holds of the object.
- `RocketReward` models the agent game's Manhattan distance to the target and its per-step reward.

Positions, speeds and angles are exact reals.

**The jump-or-die game ("Pula ou morre").** It comes in three variants:

- `app-with-coins.py` is agent-driven, with coins.
- `app.manual.py` is keyboard-driven, with coins.
- `app.py` is the original, with one jump per obstacle and a game-over state.

The modules are:

- `Arena` holds the shared geometry, the player's vertical state as a value (`Jumper`), its reachable states (`Sound`) and the box-overlap test.
- `Runner` holds the player, obstacle and coin classes of the two coin variants, whose code is identical apart from velocity ranges. It also holds pure functions for the player's jump and update, with lemmas that a jump lands after 32 updates.
- `CoinsGame`, `ManualGame` and `ClassicGame` hold each variant's `Game` class: its counters, its `check_*` rules, `reset`, and one frame of its main loop.

Each `random.randint` result is a method parameter constrained to its inclusive range.

## Model

| member | source | states |
|---|---|---|
| RocketFlight.Initial | rocket-game/stage-1/rocket-game-fit-graph.py:69-97 | A new rocket sits at the given position with the given size and default speed. It has speed 0.7, angle 0, and every control and phase flag cleared, `started_thrust` included. |
| RocketFlight.ApplyAction | rocket-game/stage-1/rocket-game-fit-graph.py:99-109 | Action 0 flips thrust and clears both lean flags. Action 1 leans left only, action 2 right only. Any other code changes nothing. No field other than the three controls ever changes. |
| RocketFlight.ApplyKey | rocket-game/rocket-game-manual.py:36-50 | KEYDOWN of W/A/D sets exactly thrust/left/right and KEYUP clears exactly that flag. The three flags are independent, other keys and events change nothing, and no other field changes. |
| RocketFlight.GroundReset | rocket-game/stage-1/rocket-game-fit-graph.py:188-193 | Exactly on the floor, speed becomes the default speed and thrust-on-down, gravity-down win and the deceleration request clear. Nothing else changes; off the floor nothing changes at all. |
| RocketFlight.Decelerate | rocket-game/stage-1/rocket-game-fit-graph.py:133-140 | While a deceleration is requested and speed exceeds the default, speed becomes the old speed times 0.965, so it strictly drops but stays positive, and the rocket rises by the new speed. Otherwise the request ends, the descent starts and y is unchanged. |
| RocketFlight.FallUnderGravity | rocket-game/stage-1/rocket-game-fit-graph.py:111-120 | It acts only when airborne with no thrust and no pending phase. Before the deceleration has started it only raises the request, without moving. After that it falls by the speed, growing speed by 1.05 only below 5. y changes only once the deceleration has started. |
| RocketFlight.BrakeDescent | rocket-game/stage-1/rocket-game-fit-graph.py:142-149 | During thrust-on-down with speed above the default, speed becomes the old speed times 0.965, so it strictly drops but stays positive, and the rocket sinks by the new speed. Otherwise the phase ends with gravity-down won and y unchanged. |
| RocketFlight.ThrustUp | rocket-game/stage-1/rocket-game-fit-graph.py:122-131 | Nothing happens while thrust-on-down is set or thrust is off. Otherwise the rocket climbs by the speed, which grows by 1.02 only below 5. Unless gravity-down has been won, it starts thrust-on-down and clears both deceleration flags. That includes every take-off from the floor, since the ground reset clears the win. |
| RocketFlight.Banked | rocket-game/rocket-game-manual.py:92-102 | Left takes precedence over right. Left lowers the angle by 0.3 down to -35, right alone raises it by 0.3 up to 35, and no key keeps it. |
| RocketFlight.Lean | rocket-game/stage-1/rocket-game-fit-graph.py:151-176 | The angle stays within [-35, 35]. With no key held, its magnitude falls by 0.2 to no lower than 0 and its sign never flips. x moves by +angle/5, -abs(angle)/5 or 0 according to the sign of the banked angle. Only angle and x change. |
| RocketFlight.Clamp | rocket-game/stage-1/rocket-game-fit-graph.py:179-186 | The result lies in [0, hi], and a value already in range is kept. |
| RocketFlight.Contain | rocket-game/stage-1/rocket-game-fit-graph.py:178-186 | Afterwards x is in [0, screen width - width] and y is in [0, screen height - height]. In-range coordinates are unchanged, and a y past the floor lands exactly on it. |
| RocketFlight.Vertical | rocket-game/stage-1/rocket-game-fit-graph.py:196-200 | The five vertical handlers never touch x, the angle, the controls or the body. |
| RocketFlight.Tick | rocket-game/stage-1/rocket-game-fit-graph.py:195-202 | After `update` the rocket is inside the screen and the angle stays within its limits. The controls and body are untouched, and the angle is exactly what the lean handler alone gives. |
| FlightLaws.TickSpeedBound | rocket-game/stage-1/rocket-game-fit-graph.py:119-120 | One `update` keeps speed positive and at most max(old speed, 5 * 1.05). |
| FlightLaws.RunSpeedBound | rocket-game/rocket-game-manual.py:136-143 | Over any number of updates, speed stays positive and at most max(initial speed, 5 * 1.05). |
| FlightLaws.TickKeepsExclusive | rocket-game/stage-1/rocket-game-fit-graph.py:195-202 | If a deceleration request and thrust-on-down are not both set before `update`, they are not both set after it. |
| FlightLaws.RunKeepsExclusive | rocket-game/stage-1/rocket-game-fit-graph.py:195-202 | The same exclusivity holds across any number of updates. |
| FlightLaws.GroundIdle | rocket-game/stage-1/rocket-game-fit-graph.py:188-202 | A rocket on the floor without thrust stays exactly there at the default speed, with all three ground-cleared flags off. |
| FlightLaws.RunGroundIdle | rocket-game/rocket-game-manual.py:129-143 | It stays on the floor at the default speed for any positive number of updates. |
| FlightLaws.TakeoffDips | rocket-game/stage-1/rocket-game-fit-graph.py:122-149 | A take-off from the floor with thrust held climbs by the default speed and enters thrust-on-down. The next update brakes the speed by 0.965 and sinks the rocket back by that speed, still above the floor. |
| FlightLaws.FallLandsThenResets | rocket-game/rocket-game-manual.py:119-134 | A fall that reaches or passes the floor is clamped onto it exactly, and the next update restores the default speed. |
| FlightLaws.RunLeanSettles | rocket-game/stage-1/rocket-game-fit-graph.py:168-176 | With no lean key, after n updates the angle's magnitude is max(abs(a0) - 0.2n, 0) and its sign is kept. |
| FlightLaws.LeanUprightAfter175 | rocket-game/stage-1/rocket-game-fit-graph.py:168-176 | Any angle within the limits is exactly 0 after 175 released updates. |
| FlightLaws.RunHoldLeft | rocket-game/stage-1/rocket-game-fit-graph.py:153-156 | Holding left for n updates gives angle max(a0 - 0.3n, -35). |
| FlightLaws.HoldLeftSaturatesAt117 | rocket-game/stage-1/rocket-game-fit-graph.py:153-156 | From upright, holding left reaches -35 at update 117 and not at 116. |
| FlightLaws.PressThenRelease | rocket-game/rocket-game-manual.py:36-50 | Pressing and then releasing a key leaves the flags as releasing it alone does. |
| Rockets.Rocket.ForAgent | rocket-game/stage-1/rocket-game-fit-graph.py:69-97 | The agent's rocket starts as `Initial` with default speed 1. |
| Rockets.Rocket.ForKeyboard | rocket-game/rocket-game-manual.py:5-34 | The keyboard rocket starts as `Initial` with default speed 0.05. |
| Rockets.Rocket.HandleAction | rocket-game/stage-1/rocket-game-fit-graph.py:99-109 | The fields change in place exactly as `ApplyAction` says. |
| Rockets.Rocket.HandleKeyEvent | rocket-game/rocket-game-manual.py:36-50 | The fields change in place exactly as `ApplyKey` says. |
| Rockets.Rocket.HandleGravityDown | rocket-game/stage-1/rocket-game-fit-graph.py:111-120 | The fields change in place exactly as `FallUnderGravity` says. |
| Rockets.Rocket.HandleThrust | rocket-game/stage-1/rocket-game-fit-graph.py:122-131 | The fields change in place exactly as `ThrustUp` says. |
| Rockets.Rocket.HandleDeceleration | rocket-game/stage-1/rocket-game-fit-graph.py:133-140 | The fields change in place exactly as `Decelerate` says. |
| Rockets.Rocket.HandleThrustOnDown | rocket-game/stage-1/rocket-game-fit-graph.py:142-149 | The fields change in place exactly as `BrakeDescent` says. |
| Rockets.Rocket.HandleHorizontalMovement | rocket-game/stage-1/rocket-game-fit-graph.py:151-176 | The fields change in place exactly as `Lean` says. |
| Rockets.Rocket.HandleBoundaryConditions | rocket-game/stage-1/rocket-game-fit-graph.py:178-186 | The fields change in place exactly as `Contain` says. |
| Rockets.Rocket.ResetSpeedOnGround | rocket-game/stage-1/rocket-game-fit-graph.py:188-193 | The fields change in place exactly as `GroundReset` says. |
| Rockets.Rocket.Update | rocket-game/stage-1/rocket-game-fit-graph.py:195-202 | The new state is `Tick` of the old one. The rocket ends on screen, speed stays positive and within max(old speed, 5 * 1.05), and phase exclusivity is kept. |
| RocketReward.Distance | rocket-game/stage-1/rocket-game-fit-graph.py:64-65 | The distance is non-negative, 0 exactly when the centres coincide, and at least each coordinate's gap. |
| RocketReward.StepReward | rocket-game/stage-1/rocket-game-fit-graph.py:254-280 | The reward is never below -10. It is 120 on reaching the target and under 20 otherwise, so it reaches 100 exactly when the new distance is 0. |
| RocketReward.ClosingRewardDependsOnNewDistance | rocket-game/stage-1/rocket-game-fit-graph.py:254-264 | When the rocket does not move away and has not arrived, the reward is (2000 - new distance) / 100, floored at -10. The starting distance cancels out. |
| RocketReward.AwayEarnsLess | rocket-game/stage-1/rocket-game-fit-graph.py:260-264 | Moving away from the target never earns more than keeping the distance. |
| Arena.Standing | app-with-coins.py:19-28 | A new player rests on the ground line, in a reachable state. |
| Runner.ScrollObstacle | app-with-coins.py:64-73 | The obstacle's update scrolls it left by its velocity while that keeps x at least -50, and otherwise respawns it, so x is at least -50 afterwards. |
| Runner.ScrollCoin | app-with-coins.py:88-97 | The coin's update scrolls it left while x stays positive, and otherwise respawns it. x ends positive, and no further right than 800 when it started there with a non-negative velocity. |
| Runner.TryJump | app-with-coins.py:30-34 | On the ground, it starts a jump aimed 150 pixels up; in the air it is a no-op. Reachable states stay reachable. |
| Runner.Advance | app-with-coins.py:36-46 | From a reachable state, y stays between peak and ground and moves by exactly 0 or 10. It rises while below the peak aim, and at or past the ground it snaps onto the ground and rests. |
| Runner.AdvanceNSplit | app-with-coins.py:36-46 | m + n updates are m updates followed by n. |
| Runner.AdvanceNSound | app-with-coins.py:36-46 | Any number of updates keeps the player in reachable states, with y in [ground - 150, ground]. |
| Runner.Rise | app-with-coins.py:37-39 | Rising k steps of 10 reaches the peak, still jumping. |
| Runner.Descend | app-with-coins.py:42-43 | Falling k steps of 10 reaches the ground line. |
| Runner.JumpLands | app-with-coins.py:30-46 | A jump from the ground is back on the ground, resting and not jumping, after 32 updates. |
| Runner.Player.constructor | app-with-coins.py:19-28 | The player starts standing on the ground. |
| Runner.Player.Jump | app-with-coins.py:30-34 | The fields change in place as `TryJump` says. |
| Runner.Player.Update | app-with-coins.py:36-48 | The fields change in place as `Advance` says, and reachability is kept. |
| Runner.Obstacle.constructor | app-with-coins.py:55-62 | The obstacle enters at the right edge with its drawn velocity, not passed. |
| Runner.Obstacle.Reset | app-with-coins.py:70-73 | The obstacle is back at the right edge with a velocity in [6, 12], not passed. |
| Runner.Obstacle.Update | app-with-coins.py:64-68 | It scrolls left by its velocity. Once wholly past the left edge it resets. Afterwards x is at least -50, and the new state is `ScrollObstacle` of the old one. |
| Runner.Coin.constructor | app-with-coins.py:79-86 | The coin enters at the right edge with its drawn velocity. |
| Runner.Coin.Reset | app-with-coins.py:94-97 | The coin is back at the right edge with the new velocity. |
| Runner.Coin.Update | app-with-coins.py:88-92 | It scrolls left and resets on reaching x <= 0. Afterwards 0 < x <= 800, the velocity stays in its range, and the new state is `ScrollCoin` of the old one. |
| CoinsGame.ObstacleAfterChecks | app-with-coins.py:200-202 | The checks leave the obstacle alone exactly when it is neither cleared nor overlapped. A cleared obstacle is respawned with the pass draw and an overlapped one with the collision draw, so it never ends marked passed. |
| CoinsGame.CoinAfterCheck | app-with-coins.py:149-154 | An unpassed coin the player touches is respawned with the drawn velocity. Any other coin is kept. |
| CoinsGame.Game.constructor | app-with-coins.py:104-111 | All counters start at 0, with the player standing and obstacle and coin at the right edge, each with the velocity drawn for it. |
| CoinsGame.Game.Reset | app-with-coins.py:127-131 | Score and errors become 0 and coins are kept. The player goes to the ground line and the obstacle is respawned. |
| CoinsGame.Game.CheckCollision | app-with-coins.py:133-147 | It returns 0.5 with no change once the obstacle is wholly left of the player. On box overlap it adds exactly one error, respawns the obstacle and returns -5. Otherwise it returns 0 and changes nothing. |
| CoinsGame.Game.CheckCaptureCoin | app-with-coins.py:149-154 | On overlap with an unpassed coin it adds exactly one coin, respawns the coin and returns 20. Otherwise it returns 0 and changes nothing. |
| CoinsGame.Game.CheckPass | app-with-coins.py:156-162 | An obstacle wholly left of the player adds exactly one point, respawns (so it ends unpassed) and returns 20. Otherwise nothing changes. |
| CoinsGame.Game.ApplyAction | app-with-coins.py:197-198 | Action 1 jumps only from the ground. Any other action, or one in the air, leaves the player unchanged. |
| CoinsGame.Game.Frame | app-with-coins.py:197-206 | The frame gives the whole new state. The player jumps on action 1 and then updates; the obstacle and coin go through the checks and then scroll. Score, errors and coins rise by exactly one on a pass, a collision and a capture, judged before the updates. Each counter grows by at most one, a collision and a pass are never both counted, and the player stays between peak and ground. |
| ManualGame.StrikesExactly | app.manual.py:118-130 | Once the obstacle is not passed, a strike happens exactly when a grounded player's right edge reached the obstacle, or when an airborne player's left edge equals the obstacle's right edge. |
| ManualGame.StrikesDiffersFromOverlap | app.manual.py:122-129 | The edge rule and box overlap differ both ways. A player 40 pixels up still overlaps the obstacle but is not penalised, and an airborne player touching the obstacle's right edge is penalised without overlapping. |
| ManualGame.SecondCaptureBranchDead | app.manual.py:136-142 | Whenever the second capturing branch's condition holds, the first branch's condition holds already, so the second branch never runs. |
| ManualGame.ObstacleAfterChecks | app.manual.py:169-171 | The checks leave the obstacle alone exactly when it is neither cleared nor struck. A cleared obstacle is respawned with the pass draw and a struck one with the collision draw, so it ends unpassed. |
| ManualGame.CoinAfterCheck | app.manual.py:132-143 | A coin not yet passed that the player captures is respawned with the drawn velocity. Any other coin is kept. |
| ManualGame.Game.constructor | app.manual.py:100-106 | All counters start at 0, with the player standing, obstacle and coin at the right edge, and each with the velocity drawn for it, the obstacle's from [6, 10]. |
| ManualGame.Game.Reset | app.manual.py:112-116 | Score and errors become 0 and coins are unchanged. The player goes to the ground line and the obstacle is respawned. |
| ManualGame.Game.CheckCollision | app.manual.py:118-130 | It returns 0.5 unchanged when the obstacle is passed, and -5 with exactly one more error and a respawn on a strike. Otherwise it returns 0 unchanged. |
| ManualGame.Game.CheckCaptureCoin | app.manual.py:132-143 | It returns 0 when the coin is passed, and 20 with exactly one more coin and a respawned coin on a capture. Otherwise it returns 0 unchanged. The coin count rises exactly when 20 is returned. |
| ManualGame.Game.CheckPass | app.manual.py:146-152 | An obstacle wholly left of the player adds exactly one point, respawns and returns 20. Otherwise nothing changes. |
| ManualGame.Game.Frame | app.manual.py:161-171 | The frame gives the whole new state. The player jumps on space and then updates, and obstacle and coin scroll before the checks see them. Score, errors and coins rise by exactly one on a pass, a strike and a capture, judged after the updates. Each counter grows by at most one, a collision and a pass are never both counted, and the player stays between peak and ground. |
| ClassicGame.Advance | app.py:33-44 | From a reachable state, y stays in [ground - 150, ground] and moves by 0 or 10. Landing sets on-ground without reassigning y. |
| ClassicGame.LandsLikeSnapping | app.py:39-42 | From any reachable state this update equals the snapping update of the coin variants. |
| ClassicGame.AdvanceNAgrees | app.py:33-44 | Any number of these updates equals as many snapping updates. |
| ClassicGame.JumpLands | app.py:26-44 | A jump from the ground is back on the ground, at rest, after 32 updates. |
| ClassicGame.Obstacle.constructor | app.py:52-60 | The obstacle enters at the right edge with velocity in [6, 10], neither passed nor jumped. |
| ClassicGame.Obstacle.Reset | app.py:68-72 | The obstacle is back at the right edge with velocity in [4, 10], with passed and jumped cleared. |
| ClassicGame.Obstacle.Update | app.py:62-66 | It scrolls left and resets once wholly past the left edge. Afterwards -50 <= x <= 800. |
| ClassicGame.Player.constructor | app.py:14-24 | The player starts standing on the ground, tied to its obstacle. |
| ClassicGame.Player.HandleInput | app.py:26-31 | A jump starts only with UP held, on the ground and the obstacle not yet jumped; the obstacle then records the jump. Otherwise nothing changes, and the obstacle's position and passed flag are never touched. |
| ClassicGame.Player.Update | app.py:33-44 | The fields change in place as `ClassicGame.Advance` says, keeping reachability. |
| ClassicGame.Game.constructor | app.py:79-84 | The score starts at 0, the game is not over and the player is standing. |
| ClassicGame.Game.Reset | app.py:90-94 | The game is no longer over and the score is 0. The player goes to the ground line and the obstacle is fresh. The jump count is kept, the restart mark moves up to it, and one more obstacle has spawned. |
| ClassicGame.Game.CheckCollision | app.py:96-98 | `game_over` becomes old `game_over` or box overlap, so it is never cleared. The score is untouched. |
| ClassicGame.Game.CheckPass | app.py:100-103 | The score rises by exactly one only for a jumped, unpassed obstacle wholly left of the player, which becomes passed. An already passed obstacle never scores again. The jump and spawn counts are untouched. |
| ClassicGame.Game.Tick | app.py:113-124 | While the game is over and R is not held, nothing changes. R restarts at score 0, with the player moved to the ground line and a fresh obstacle. Otherwise the frame gives the whole new state: the gated jump, the update, and the scrolled or respawned obstacle with its flags. The score rises by one exactly when a jumped, unpassed obstacle is cleared, and the game is over exactly when the boxes overlap. The invariant kept says each obstacle is jumped at most once, and the score never exceeds the jumps since the restart. The jump count rises by one exactly when the gated jump happens, so it counts real jumps. |

## Left out

- Rendering, fonts, the window, event polling, frame timing (`Clock.tick`) and `print` are left out. Input reaches the model as method parameters: the action code, the key event, the space or UP key, and R.
- The learning agent is left out: `DQNAgent`, `get_state`, model loading and prediction, the prediction thread and its lock, and the episode bookkeeping (`remember`, `replay`, `save_model`, `reset_rocket` with its random target). The agent's action is an input of the frame.
- The frame-counter throttle in the coins game's main loop is left out. Its interval is 1, so every frame reads the action.
- `random.randint` is modelled only as an arbitrary value in its inclusive range, passed in by the caller.
- Floating point is left out. Rocket positions, speeds and angles are exact reals, so IEEE-754 rounding is not modelled. The exact-equality floor test is modelled over reals, and its behaviour under float drift is not claimed.
- The rocket's pygame `Rect` is left out. A `Rect` stores its centre as integers, truncating the rocket's real position, so the reward's distance is taken over integer centres that the caller supplies.
- `Rect.colliderect` is modelled as strict overlap of the boxes at the entities' current integer positions. Every call site in the main loops runs after the rectangles were refreshed from those positions.
- `MAX_GRAVITY_DOWN_SPEED`, the coins game's `done` field and `penalty_collision` as a field (its value -5 is a constant here) are unused by the logic, so they are not fields of the model.
- `jump_peak` is first assigned in `jump`. The model gives it the peak from the start; it is never read before a jump.
- The coins and keyboard games never call `Game.reset` from their loops, and their `check_*` return values are discarded there. Both are modelled as the methods they are.
- The model keeps the source's individual phase flags rather than a single phase enum, because many flag combinations are reachable. With both lean keys held, left takes precedence, as the `elif` in `handle_horizontal_movement` does.

=== FILE: Arena.dfy ===
/**
 * What the three jump-or-die variants share: the screen, the fixed geometry of
 * the player, obstacle and coin, the player's vertical state as a value, and
 * the box-overlap test `Rect.colliderect` performs.
 */
module Arena {

  const ScreenWidth: int := 800
  const ScreenHeight: int := 400

  const PlayerX: int := 100
  const PlayerWidth: int := 50
  const PlayerHeight: int := 50
  /** Pixels the player moves per update while rising or falling. */
  const PlayerVelocity: int := 10
  const JumpHeight: int := 150
  /** The player's resting y: SCREEN_HEIGHT - height - 10. */
  const Ground: int := ScreenHeight - PlayerHeight - 10
  /** The highest point of a jump started from the ground. */
  const Peak: int := Ground - JumpHeight

  const ObstacleWidth: int := 50
  const ObstacleHeight: int := 50
  const ObstacleY: int := ScreenHeight - ObstacleHeight - 10

  const CoinWidth: int := 20
  const CoinHeight: int := 20
  const CoinY: int := ScreenHeight - CoinHeight - 100

  /** What the coin variants' `check_*` methods return. */
  const ClearedReward: real := 0.5
  const PenaltyCollision: real := -5.0
  const NoReward: real := 0.0
  const CoinReward: int := 20
  const PassReward: int := 20

  /** The player's vertical state. */
  datatype Jumper = Jumper(y: int, isJumping: bool, jumpPeak: int, onGround: bool)

  /**
   * The states a player reaches from the ground: between the peak and the
   * ground on the 10-pixel grid, resting only on the ground, and every jump
   * aimed at the peak of a jump started from the ground.
   */
  predicate Sound(p: Jumper)
  {
    && Peak <= p.y <= Ground
    && (Ground - p.y) % PlayerVelocity == 0
    && (p.onGround ==> p.y == Ground && !p.isJumping)
    && (p.isJumping ==> p.jumpPeak == Peak)
  }

  /** A player standing on the ground, as every constructor leaves it. */
  function Standing(): (p: Jumper)
    ensures Sound(p) && p.onGround && p.y == Ground
  {
    Jumper(Ground, false, Peak, true)
  }

  /** `Rect.colliderect` for boxes of positive size: their interiors intersect. */
  predicate Overlap(x1: int, y1: int, w1: int, h1: int, x2: int, y2: int, w2: int, h2: int)
  {
    x1 < x2 + w2 && x2 < x1 + w1 && y1 < y2 + h2 && y2 < y1 + h1
  }

  /** The obstacle's right edge is left of the player: it has been passed. */
  predicate Cleared(obstacleX: int) { obstacleX + ObstacleWidth < PlayerX }

  /** The player's box meets the obstacle's box. */
  predicate HitsObstacle(playerY: int, obstacleX: int)
  {
    Overlap(PlayerX, playerY, PlayerWidth, PlayerHeight, obstacleX, ObstacleY, ObstacleWidth, ObstacleHeight)
  }

  /** The player's box meets the coin's box. */
  predicate TouchesCoin(playerY: int, coinX: int)
  {
    Overlap(PlayerX, playerY, PlayerWidth, PlayerHeight, coinX, CoinY, CoinWidth, CoinHeight)
  }
}

=== FILE: ClassicGame.dfy ===
/**
 * The original jump-or-die game: no coins, one jump allowed per obstacle, a
 * point for every obstacle cleared by a jump, and a game-over state left only
 * by pressing R.
 */
module ClassicGame {
  import opened Arena
  import Runner

  /** `random.randint(6, 10)` in the obstacle's constructor. */
  const FirstMinVelocity: int := 6
  const FirstMaxVelocity: int := 10
  /** `random.randint(4, 10)` in every later reset. */
  const ResetMinVelocity: int := 4
  const ResetMaxVelocity: int := 10

  /**
   * `Player.update` of this variant: like the other variants, except that on
   * landing it sets `on_ground` without moving `y` onto the ground line.
   */
  function Advance(p: Jumper): (r: Jumper)
    ensures Sound(p) ==> Sound(r)
    ensures Sound(p) ==> r.y == p.y || r.y == p.y - PlayerVelocity || r.y == p.y + PlayerVelocity
    ensures !p.isJumping && p.y >= Ground ==> r == p.(onGround := true)
  {
    if p.isJumping then
      if p.y > p.jumpPeak then p.(y := p.y - PlayerVelocity)
      else p.(isJumping := false)
    else if p.y < Ground then p.(y := p.y + PlayerVelocity)
    else p.(onGround := true)
  }

  function AdvanceN(p: Jumper, n: nat): Jumper
    decreases n
  {
    if n == 0 then p else AdvanceN(Advance(p), n - 1)
  }

  /** From any reachable state, leaving out the snap onto the ground changes nothing. */
  lemma LandsLikeSnapping(p: Jumper)
    requires Sound(p)
    ensures Advance(p) == Runner.Advance(p)
  {
  }

  lemma {:induction false} AdvanceNAgrees(p: Jumper, n: nat)
    requires Sound(p)
    ensures AdvanceN(p, n) == Runner.AdvanceN(p, n)
    decreases n
  {
    if n > 0 {
      LandsLikeSnapping(p);
      AdvanceNAgrees(Advance(p), n - 1);
    }
  }

  /** A jump from the ground is back on the ground, at rest, after 32 updates. */
  lemma JumpLands(p: Jumper)
    requires Sound(p) && p.onGround
    ensures var q := AdvanceN(Runner.TryJump(p), 32);
            q.y == Ground && q.onGround && !q.isJumping
  {
    Runner.JumpLands(p);
    AdvanceNAgrees(Runner.TryJump(p), 32);
  }

  class Obstacle {
    var x: int
    var velocity: int
    var passedPlayer: bool
    var playerJumpedThis: bool

    predicate Valid()
      reads this
    {
      ResetMinVelocity <= velocity <= ResetMaxVelocity && -ObstacleWidth <= x <= ScreenWidth
    }

    constructor (initialVelocity: int)
      requires FirstMinVelocity <= initialVelocity <= FirstMaxVelocity
      ensures Valid() && x == ScreenWidth && velocity == initialVelocity
      ensures !passedPlayer && !playerJumpedThis
    {
      x := ScreenWidth;
      velocity := initialVelocity;
      passedPlayer := false;
      playerJumpedThis := false;
    }

    /** `reset`: a fresh obstacle at the right edge, neither passed nor jumped. */
    method Reset(nextVelocity: int)
      requires ResetMinVelocity <= nextVelocity <= ResetMaxVelocity
      modifies this
      ensures Valid() && x == ScreenWidth && velocity == nextVelocity
      ensures !passedPlayer && !playerJumpedThis
    {
      x := ScreenWidth;
      velocity := nextVelocity;
      passedPlayer := false;
      playerJumpedThis := false;
    }

    /** `update`: scroll left; once wholly past the left edge, reset with `nextVelocity`. */
    method Update(nextVelocity: int)
      requires Valid()
      requires ResetMinVelocity <= nextVelocity <= ResetMaxVelocity
      modifies this
      ensures Valid()
      ensures old(x) - old(velocity) >= -ObstacleWidth ==>
                && x == old(x) - old(velocity) && velocity == old(velocity)
                && passedPlayer == old(passedPlayer) && playerJumpedThis == old(playerJumpedThis)
      ensures old(x) - old(velocity) < -ObstacleWidth ==>
                x == ScreenWidth && velocity == nextVelocity && !passedPlayer && !playerJumpedThis
    {
      x := x - velocity;
      if x < -ObstacleWidth {
        Reset(nextVelocity);
      }
    }
  }

  class Player {
    /** The obstacle whose `player_jumped_this` flag the player sets. */
    const obstacle: Obstacle
    var y: int
    var isJumping: bool
    var jumpPeak: int
    var onGround: bool

    function State(): Jumper
      reads this
    {
      Jumper(y, isJumping, jumpPeak, onGround)
    }

    predicate Valid()
      reads this
    {
      Sound(State())
    }

    constructor (o: Obstacle)
      ensures obstacle == o && State() == Standing() && Valid()
    {
      obstacle := o;
      y, isJumping, jumpPeak, onGround := Ground, false, Peak, true;
    }

    /**
     * `handle_input`: with UP held, a player resting on the ground who has not
     * yet jumped the current obstacle jumps, and the obstacle records it.
     */
    method HandleInput(up: bool)
      requires Valid()
      modifies this, obstacle
      ensures Valid()
      ensures obstacle.x == old(obstacle.x) && obstacle.velocity == old(obstacle.velocity)
      ensures obstacle.passedPlayer == old(obstacle.passedPlayer)
      ensures up && old(onGround) && !old(obstacle.playerJumpedThis) ==>
                State() == Runner.TryJump(old(State())) && obstacle.playerJumpedThis
      ensures !(up && old(onGround) && !old(obstacle.playerJumpedThis)) ==>
                State() == old(State()) && obstacle.playerJumpedThis == old(obstacle.playerJumpedThis)
    {
      if up && !isJumping && onGround && !obstacle.playerJumpedThis {
        isJumping := true;
        jumpPeak := y - JumpHeight;
        onGround := false;
        obstacle.playerJumpedThis := true;
      }
    }

    method Update()
      requires Valid()
      modifies this
      ensures Valid()
      ensures State() == Advance(old(State()))
    {
      if isJumping {
        if y > jumpPeak {
          y := y - PlayerVelocity;
        } else {
          isJumping := false;
        }
      } else if y < Ground {
        y := y + PlayerVelocity;
      } else {
        onGround := true;
      }
    }
  }

  class Game {
    const obstacle: Obstacle
    const player: Player
    var score: int
    var gameOver: bool
    /** Jumps made since the game was created. */
    ghost var jumps: nat
    /** Jumps made before the last restart. */
    ghost var jumpsAtRestart: nat
    /** Obstacles spawned since the game was created, the current one included. */
    ghost var spawns: nat

    /**
     * Besides the entities' own invariants: a point is only ever scored for
     * the current obstacle once it has been jumped; every obstacle has been
     * jumped at most once; and the score never exceeds the jumps made since
     * the last restart, the current obstacle's pending jump not counting
     * until it is scored.
     */
    ghost predicate Valid()
      reads this, obstacle, player
    {
      && player.obstacle == obstacle
      && player.Valid() && obstacle.Valid()
      && (obstacle.passedPlayer ==> obstacle.playerJumpedThis)
      && jumps + (if obstacle.playerJumpedThis then 0 else 1) <= spawns
      && jumpsAtRestart <= jumps
      && 0 <= score
      && score + (if obstacle.playerJumpedThis && !obstacle.passedPlayer then 1 else 0) <= jumps - jumpsAtRestart
    }

    constructor (initialVelocity: int)
      requires FirstMinVelocity <= initialVelocity <= FirstMaxVelocity
      ensures Valid()
      ensures score == 0 && !gameOver && player.State() == Standing()
      ensures obstacle.x == ScreenWidth && !obstacle.passedPlayer && !obstacle.playerJumpedThis
    {
      var o := new Obstacle(initialVelocity);
      obstacle := o;
      player := new Player(o);
      score := 0;
      gameOver := false;
      jumps, jumpsAtRestart, spawns := 0, 0, 1;
    }

    /** `reset`: play again from score 0 with the player at the ground line and a fresh obstacle. */
    method Reset(nextVelocity: int)
      requires Valid()
      requires ResetMinVelocity <= nextVelocity <= ResetMaxVelocity
      modifies this, player, obstacle
      ensures Valid()
      ensures !gameOver && score == 0
      ensures player.y == Ground && player.isJumping == old(player.isJumping)
      ensures player.onGround == old(player.onGround) && player.jumpPeak == old(player.jumpPeak)
      ensures obstacle.x == ScreenWidth && obstacle.velocity == nextVelocity
      ensures !obstacle.passedPlayer && !obstacle.playerJumpedThis
      ensures jumps == old(jumps) && jumpsAtRestart == jumps && spawns == old(spawns) + 1
    {
      gameOver := false;
      score := 0;
      player.y := Ground;
      obstacle.Reset(nextVelocity);
      spawns := spawns + 1;
      jumpsAtRestart := jumps;
    }

    /** `check_collision`: overlapping boxes end the game; it never clears `game_over`. */
    method CheckCollision()
      requires Valid()
      modifies this
      ensures Valid()
      ensures gameOver == (old(gameOver) || HitsObstacle(player.y, obstacle.x))
      ensures score == old(score)
      ensures jumps == old(jumps) && jumpsAtRestart == old(jumpsAtRestart) && spawns == old(spawns)
    {
      if HitsObstacle(player.y, obstacle.x) {
        gameOver := true;
      }
    }

    /**
     * `check_pass`: an obstacle wholly left of the player, jumped and not yet
     * scored, earns one point and is marked passed.
     */
    method CheckPass()
      requires Valid()
      modifies this, obstacle
      ensures Valid()
      ensures obstacle.x == old(obstacle.x) && obstacle.velocity == old(obstacle.velocity)
      ensures obstacle.playerJumpedThis == old(obstacle.playerJumpedThis)
      ensures gameOver == old(gameOver)
      ensures jumps == old(jumps) && jumpsAtRestart == old(jumpsAtRestart) && spawns == old(spawns)
      ensures !old(obstacle.passedPlayer) && old(obstacle.x) + ObstacleWidth < PlayerX
              && old(obstacle.playerJumpedThis) ==>
                score == old(score) + 1 && obstacle.passedPlayer
      ensures !(!old(obstacle.passedPlayer) && old(obstacle.x) + ObstacleWidth < PlayerX
                && old(obstacle.playerJumpedThis)) ==>
                score == old(score) && obstacle.passedPlayer == old(obstacle.passedPlayer)
      ensures old(obstacle.passedPlayer) ==> score == old(score)
    {
      if !obstacle.passedPlayer && obstacle.x + ObstacleWidth < PlayerX && obstacle.playerJumpedThis {
        score := score + 1;
        obstacle.passedPlayer := true;
      }
    }

    /**
     * One frame of the main loop. While the game is over nothing moves unless
     * R is held, which restarts it. Otherwise the player handles input and
     * updates, the obstacle updates, and collision and pass are checked: the
     * score rises by at most one and the game is over exactly when the boxes
     * overlap. `nextVelocity` is the draw used by whichever reset happens.
     */
    method Tick(up: bool, r: bool, nextVelocity: int)
      requires Valid()
      requires ResetMinVelocity <= nextVelocity <= ResetMaxVelocity
      modifies this, player, obstacle
      ensures Valid()
      ensures old(gameOver) && !r ==>
                && gameOver && score == old(score) && player.State() == old(player.State())
                && obstacle.x == old(obstacle.x) && obstacle.velocity == old(obstacle.velocity)
                && obstacle.passedPlayer == old(obstacle.passedPlayer)
                && obstacle.playerJumpedThis == old(obstacle.playerJumpedThis)
      ensures old(gameOver) && r ==>
                && !gameOver && score == 0
                && player.State() == old(player.State()).(y := Ground)
                && obstacle.x == ScreenWidth && obstacle.velocity == nextVelocity
                && !obstacle.passedPlayer && !obstacle.playerJumpedThis
      ensures !old(gameOver) ==>
                && old(score) <= score <= old(score) + 1
                && gameOver == HitsObstacle(player.y, obstacle.x)
                && Peak <= player.y <= Ground
      ensures !old(gameOver) ==>
                var jumped := up && old(player.onGround) && !old(obstacle.playerJumpedThis);
                var respawned := old(obstacle.x) - old(obstacle.velocity) < -ObstacleWidth;
                var scored := !respawned && !old(obstacle.passedPlayer)
                              && Cleared(old(obstacle.x) - old(obstacle.velocity))
                              && (old(obstacle.playerJumpedThis) || jumped);
                && player.State() ==
                     Advance(if jumped then Runner.TryJump(old(player.State())) else old(player.State()))
                && (respawned ==>
                      && obstacle.x == ScreenWidth && obstacle.velocity == nextVelocity
                      && !obstacle.passedPlayer && !obstacle.playerJumpedThis)
                && (!respawned ==>
                      && obstacle.x == old(obstacle.x) - old(obstacle.velocity)
                      && obstacle.velocity == old(obstacle.velocity)
                      && obstacle.playerJumpedThis == (old(obstacle.playerJumpedThis) || jumped)
                      && obstacle.passedPlayer == (old(obstacle.passedPlayer) || scored))
                && score == old(score) + (if scored then 1 else 0)
      ensures jumps == old(jumps) +
                (if !old(gameOver) && up && old(player.onGround) && !old(obstacle.playerJumpedThis) then 1 else 0)
    {
      if !gameOver {
        player.HandleInput(up);
        if old(obstacle.playerJumpedThis) != obstacle.playerJumpedThis {
          jumps := jumps + 1;
        }
        player.Update();
        ghost var respawns := obstacle.x - obstacle.velocity < -ObstacleWidth;
        obstacle.Update(nextVelocity);
        if respawns {
          spawns := spawns + 1;
        }
        CheckCollision();
        CheckPass();
      } else if r {
        Reset(nextVelocity);
      }
    }
  }
}

=== FILE: CoinsGame.dfy ===
/**
 * The agent-driven jump-or-die game with coins: the scoring rules of its
 * `Game` class and one frame of its main loop, with the agent's action as an
 * input of the frame.
 */
module CoinsGame {
  import opened Arena
  import opened Runner

  /** `random.randint(16, 25)` for coin velocities in this variant. */
  const CoinMinVelocity: int := 16
  /** The action code that asks for a jump. */
  const JumpAction: int := 1

  /** The `random.randint` results one frame may draw, one per possible reset. */
  datatype Draws = Draws(collision: int, pass: int, capture: int, obstacle: int, coin: int)

  predicate DrawsInRange(d: Draws)
  {
    && ObstacleMinVelocity <= d.collision <= ObstacleMaxVelocity
    && ObstacleMinVelocity <= d.pass <= ObstacleMaxVelocity
    && ObstacleMinVelocity <= d.obstacle <= ObstacleMaxVelocity
    && CoinMinVelocity <= d.capture <= CoinMaxVelocity
    && CoinMinVelocity <= d.coin <= CoinMaxVelocity
  }

  /**
   * The obstacle after this variant's checks, which run before the updates: a
   * cleared obstacle is scored and respawned with the pass draw, one the player
   * overlaps is respawned with the collision draw, any other is left alone.
   */
  function ObstacleAfterChecks(playerY: int, o: Mover, d: Draws): (r: Mover)
    ensures !r.passedPlayer || r == o
    ensures r == o <==> !Cleared(o.x) && !HitsObstacle(playerY, o.x)
    ensures Cleared(o.x) ==> r == Respawn(d.pass)
    ensures !Cleared(o.x) && HitsObstacle(playerY, o.x) ==> r == Respawn(d.collision)
  {
    if Cleared(o.x) then Respawn(d.pass)
    else if HitsObstacle(playerY, o.x) then Respawn(d.collision)
    else o
  }

  /** The coin after the capture check: an unpassed coin the player touches respawns. */
  function CoinAfterCheck(playerY: int, c: Mover, nextVelocity: int): (r: Mover)
    ensures r == c || (r.x == ScreenWidth && r.velocity == nextVelocity)
    ensures TouchesCoin(playerY, c.x) && !c.passedPlayer ==> r == Respawn(nextVelocity)
    ensures !(TouchesCoin(playerY, c.x) && !c.passedPlayer) ==> r == c
  {
    if TouchesCoin(playerY, c.x) && !c.passedPlayer then Respawn(nextVelocity) else c
  }

  class Game {
    const obstacle: Obstacle
    const player: Player
    const coin: Coin
    var score: int
    var coins: int
    var errors: int

    predicate Valid()
      reads this, obstacle, player, coin
    {
      player.Valid() && obstacle.Valid() && coin.Valid() && coin.minVelocity == CoinMinVelocity
    }

    constructor (obstacleVelocity: int, coinVelocity: int)
      requires ObstacleMinVelocity <= obstacleVelocity <= ObstacleMaxVelocity
      requires CoinMinVelocity <= coinVelocity <= CoinMaxVelocity
      ensures Valid()
      ensures score == 0 && coins == 0 && errors == 0
      ensures player.State() == Standing()
      ensures obstacle.x == ScreenWidth && !obstacle.passedPlayer && coin.x == ScreenWidth
      ensures obstacle.velocity == obstacleVelocity && coin.velocity == coinVelocity
    {
      obstacle := new Obstacle(obstacleVelocity);
      player := new Player();
      coin := new Coin(CoinMinVelocity, coinVelocity);
      score, coins, errors := 0, 0, 0;
    }

    /** `reset`: zero score and errors, put the player on the ground, respawn the obstacle. */
    method Reset(nextVelocity: int)
      requires Valid()
      requires ObstacleMinVelocity <= nextVelocity <= ObstacleMaxVelocity
      modifies this, player, obstacle
      ensures Valid()
      ensures score == 0 && errors == 0 && coins == old(coins)
      ensures player.y == Ground && player.isJumping == old(player.isJumping)
      ensures player.onGround == old(player.onGround) && player.jumpPeak == old(player.jumpPeak)
      ensures obstacle.x == ScreenWidth && obstacle.velocity == nextVelocity && !obstacle.passedPlayer
    {
      score := 0;
      errors := 0;
      player.y := Ground;
      obstacle.Reset(nextVelocity);
    }

    /**
     * `check_collision`: 0.5 once the obstacle is passed; on overlap one more
     * error, a respawned obstacle and -5; otherwise 0.
     */
    method CheckCollision(nextVelocity: int) returns (reward: real)
      requires Valid()
      requires ObstacleMinVelocity <= nextVelocity <= ObstacleMaxVelocity
      modifies this, obstacle
      ensures Valid()
      ensures score == old(score) && coins == old(coins)
      ensures Cleared(old(obstacle.x)) ==>
                reward == ClearedReward && errors == old(errors) && unchanged(obstacle)
      ensures !Cleared(old(obstacle.x)) && HitsObstacle(player.y, old(obstacle.x)) ==>
                && reward == PenaltyCollision && errors == old(errors) + 1
                && obstacle.x == ScreenWidth && obstacle.velocity == nextVelocity && !obstacle.passedPlayer
      ensures !Cleared(old(obstacle.x)) && !HitsObstacle(player.y, old(obstacle.x)) ==>
                reward == NoReward && errors == old(errors) && unchanged(obstacle)
    {
      var playerFinal := PlayerX + PlayerWidth;
      var obstacleFinal := obstacle.x + ObstacleWidth;
      if obstacleFinal < PlayerX {
        return ClearedReward;
      }
      if player.y < ObstacleY + ObstacleHeight && player.y + PlayerHeight > ObstacleY
         && playerFinal > obstacle.x && PlayerX < obstacleFinal
      {
        errors := errors + 1;
        obstacle.Reset(nextVelocity);
        return PenaltyCollision;
      }
      return NoReward;
    }

    /** `check_capture_coin`: touching a coin not yet passed scores it and respawns it. */
    method CheckCaptureCoin(nextVelocity: int) returns (reward: int)
      requires Valid()
      requires CoinMinVelocity <= nextVelocity <= CoinMaxVelocity
      modifies this, coin
      ensures Valid()
      ensures score == old(score) && errors == old(errors)
      ensures TouchesCoin(player.y, old(coin.x)) && !old(coin.passedPlayer) ==>
                reward == CoinReward && coins == old(coins) + 1
                && coin.x == ScreenWidth && coin.velocity == nextVelocity
      ensures !(TouchesCoin(player.y, old(coin.x)) && !old(coin.passedPlayer)) ==>
                reward == 0 && coins == old(coins) && unchanged(coin)
    {
      if TouchesCoin(player.y, coin.x) && !coin.passedPlayer {
        coins := coins + 1;
        coin.Reset(nextVelocity);
        return CoinReward;
      }
      return 0;
    }

    /** `check_pass`: an obstacle wholly left of the player scores one point and respawns. */
    method CheckPass(nextVelocity: int) returns (reward: int)
      requires Valid()
      requires ObstacleMinVelocity <= nextVelocity <= ObstacleMaxVelocity
      modifies this, obstacle
      ensures Valid()
      ensures errors == old(errors) && coins == old(coins)
      ensures Cleared(old(obstacle.x)) ==>
                && reward == PassReward && score == old(score) + 1
                && obstacle.x == ScreenWidth && obstacle.velocity == nextVelocity && !obstacle.passedPlayer
      ensures !Cleared(old(obstacle.x)) ==> reward == 0 && score == old(score) && unchanged(obstacle)
    {
      if obstacle.x + ObstacleWidth < PlayerX {
        score := score + 1;
        obstacle.passedPlayer := true;
        obstacle.Reset(nextVelocity);
        return PassReward;
      }
      return 0;
    }

    /** The jump gating of the main loop: jump on action 1 unless already jumping. */
    method ApplyAction(action: int)
      requires Valid()
      modifies player
      ensures Valid()
      ensures action == JumpAction && old(player.onGround) ==>
                player.isJumping && !player.onGround && player.y == old(player.y) && player.jumpPeak == Peak
      ensures !(action == JumpAction && old(player.onGround)) ==> player.State() == old(player.State())
    {
      if action == JumpAction && !player.isJumping {
        player.Jump();
      }
    }

    /**
     * One frame of the main loop: the action, the three checks, then the three
     * updates. Every counter grows by at most one, and a collision and a pass
     * are never both scored in the same frame.
     */
    method Frame(action: int, d: Draws)
      requires Valid() && DrawsInRange(d)
      modifies this, player, obstacle, coin
      ensures Valid()
      ensures old(score) <= score <= old(score) + 1
      ensures old(errors) <= errors <= old(errors) + 1
      ensures old(coins) <= coins <= old(coins) + 1
      ensures (score - old(score)) + (errors - old(errors)) <= 1
      ensures Peak <= player.y <= Ground
      ensures player.State() ==
                Advance(if action == JumpAction then TryJump(old(player.State())) else old(player.State()))
      ensures obstacle.Snapshot() ==
                ScrollObstacle(ObstacleAfterChecks(old(player.y), old(obstacle.Snapshot()), d), d.obstacle)
      ensures coin.Snapshot() == ScrollCoin(CoinAfterCheck(old(player.y), old(coin.Snapshot()), d.capture), d.coin)
      ensures score == old(score) + (if Cleared(old(obstacle.x)) then 1 else 0)
      ensures errors == old(errors) +
                (if !Cleared(old(obstacle.x)) && HitsObstacle(old(player.y), old(obstacle.x)) then 1 else 0)
      ensures coins == old(coins) +
                (if TouchesCoin(old(player.y), old(coin.x)) && !old(coin.passedPlayer) then 1 else 0)
    {
      ApplyAction(action);
      var _ := CheckCaptureCoin(d.capture);
      var _ := CheckCollision(d.collision);
      var _ := CheckPass(d.pass);
      player.Update();
      obstacle.Update(d.obstacle);
      coin.Update(d.coin);
    }
  }
}

=== FILE: FlightLaws.dfy ===
/**
 * Properties of the rocket's flight governor that span several handlers or
 * several ticks: the speed bound, the exclusivity of the two deceleration
 * phases, resting on the floor, landing, and the lean's decay and saturation.
 */
module FlightLaws {
  import opened RocketFlight

  /** Every speed the handlers produce stays positive and below the larger of the old speed and the ceiling. */
  lemma TickSpeedBound(s: Flight, screenWidth: real, screenHeight: real)
    requires 0.0 < s.speed
    requires 0.0 < s.defaultSpeed <= SpeedCeiling
    ensures 0.0 < Tick(s, screenWidth, screenHeight).speed <= Max(s.speed, SpeedCeiling)
  {
    var cap := Max(s.speed, SpeedCeiling);
    var s1 := GroundReset(s, screenHeight);
    assert 0.0 < s1.speed <= cap;
    var s2 := Decelerate(s1);
    assert 0.0 < s2.speed <= cap;
    var s3 := FallUnderGravity(s2, screenHeight);
    assert 0.0 < s3.speed <= cap;
    var s4 := BrakeDescent(s3);
    assert 0.0 < s4.speed <= cap;
    var s5 := ThrustUp(s4);
    assert 0.0 < s5.speed <= cap;
    assert Tick(s, screenWidth, screenHeight).speed == s5.speed;
  }

  /** Over any number of ticks the speed stays within max(initial speed, MaxSpeed * GravityDownFactor). */
  lemma {:induction false} RunSpeedBound(s: Flight, screenWidth: real, screenHeight: real, n: nat)
    requires 0.0 < s.speed
    requires 0.0 < s.defaultSpeed <= SpeedCeiling
    ensures 0.0 < Run(s, screenWidth, screenHeight, n).speed <= Max(s.speed, SpeedCeiling)
    decreases n
  {
    if n > 0 {
      var t := Tick(s, screenWidth, screenHeight);
      TickSpeedBound(s, screenWidth, screenHeight);
      RunSpeedBound(t, screenWidth, screenHeight, n - 1);
    }
  }

  /** A deceleration request and the thrust-on-down phase are never both pending after `update`. */
  lemma TickKeepsExclusive(s: Flight, screenWidth: real, screenHeight: real)
    requires Exclusive(s)
    ensures Exclusive(Tick(s, screenWidth, screenHeight))
  {
    var s1 := GroundReset(s, screenHeight);
    var s2 := Decelerate(s1);
    var s3 := FallUnderGravity(s2, screenHeight);
    var s4 := BrakeDescent(s3);
    assert Exclusive(s1) && Exclusive(s2) && Exclusive(s3) && Exclusive(s4);
    assert Exclusive(ThrustUp(s4));
  }

  lemma {:induction false} RunKeepsExclusive(s: Flight, screenWidth: real, screenHeight: real, n: nat)
    requires Exclusive(s)
    ensures Exclusive(Run(s, screenWidth, screenHeight, n))
    decreases n
  {
    if n > 0 {
      TickKeepsExclusive(s, screenWidth, screenHeight);
      RunKeepsExclusive(Tick(s, screenWidth, screenHeight), screenWidth, screenHeight, n - 1);
    }
  }

  /** On the floor without thrust, a tick keeps the rocket exactly on the floor at the default speed. */
  lemma GroundIdle(s: Flight, screenWidth: real, screenHeight: real)
    requires s.y == Floor(s, screenHeight) && 0.0 <= Floor(s, screenHeight)
    requires !s.thrust
    ensures var r := Tick(s, screenWidth, screenHeight);
            r.y == s.y && r.speed == s.defaultSpeed && !r.thrust
            && !r.requestDeceleration && !r.startedThrustOnDown && !r.winGravityDown
            && r.startDeceleration == s.startDeceleration
  {
    var s1 := GroundReset(s, screenHeight);
    assert Decelerate(s1) == s1;
    assert FallUnderGravity(s1, screenHeight) == s1;
    assert BrakeDescent(s1) == s1 && ThrustUp(s1) == s1;
    var s6 := Lean(s1);
    assert s6.y == s.y && s6.height == s.height;
  }

  /** Idling on the floor for any number of ticks keeps it there at exactly the default speed. */
  lemma {:induction false} RunGroundIdle(s: Flight, screenWidth: real, screenHeight: real, n: nat)
    requires s.y == Floor(s, screenHeight) && 0.0 <= Floor(s, screenHeight)
    requires !s.thrust
    requires n > 0
    ensures var r := Run(s, screenWidth, screenHeight, n);
            r.y == s.y && r.speed == s.defaultSpeed && !r.thrust
    decreases n
  {
    var t := Tick(s, screenWidth, screenHeight);
    GroundIdle(s, screenWidth, screenHeight);
    if n > 1 {
      RunGroundIdle(t, screenWidth, screenHeight, n - 1);
    }
  }

  /**
   * A free fall whose next step would reach or pass the floor is clamped onto the
   * floor exactly, so the following tick's ground check fires and restores the
   * default speed.
   */
  lemma FallLandsThenResets(s: Flight, screenWidth: real, screenHeight: real)
    requires 0.0 <= Floor(s, screenHeight)
    requires Coasting(s, screenHeight) && s.startDeceleration
    requires s.y + s.speed >= Floor(s, screenHeight)
    ensures Tick(s, screenWidth, screenHeight).y == Floor(s, screenHeight)
    ensures var r := Tick(Tick(s, screenWidth, screenHeight), screenWidth, screenHeight);
            r.y == Floor(s, screenHeight) && r.speed == s.defaultSpeed
  {
    var s1 := GroundReset(s, screenHeight);
    assert s1 == s;
    assert Decelerate(s) == s;
    var s3 := FallUnderGravity(s, screenHeight);
    assert s3.y >= Floor(s, screenHeight) && !s3.startedThrustOnDown && !s3.thrust;
    assert BrakeDescent(s3) == s3 && ThrustUp(s3) == s3;
    var t := Tick(s, screenWidth, screenHeight);
    assert t.y == Floor(t, screenHeight);
    GroundIdle(t, screenWidth, screenHeight);
  }

  /**
   * Taking off from the floor enters thrust-on-down, because the ground reset
   * has just cleared the gravity-down win: the first tick climbs by the default
   * speed, and the second sinks back by the braked speed while thrust is held.
   */
  lemma TakeoffDips(s: Flight, screenWidth: real, screenHeight: real)
    requires s.y == Floor(s, screenHeight) && s.thrust
    requires 0.0 < s.defaultSpeed < MaxSpeed && s.defaultSpeed <= Floor(s, screenHeight)
    ensures var t1 := Tick(s, screenWidth, screenHeight);
            && t1.startedThrustOnDown && !t1.winGravityDown
            && t1.y == s.y - s.defaultSpeed && t1.speed == s.defaultSpeed * SpeedUpFactor
    ensures var t1 := Tick(s, screenWidth, screenHeight);
            var t2 := Tick(t1, screenWidth, screenHeight);
            && t2.startedThrustOnDown
            && t2.speed == t1.speed * DecelerationFactor
            && t2.y == t1.y + t2.speed
            && t1.y < t2.y < s.y
  {
  }

  /** With no lean key held, the angle decays by AngleDecay per tick towards 0 and never changes sign. */
  lemma {:induction false} RunLeanSettles(s: Flight, screenWidth: real, screenHeight: real, n: nat)
    requires !s.moveLeft && !s.moveRight
    ensures var a := Run(s, screenWidth, screenHeight, n).angle;
            Abs(a) == Max(Abs(s.angle) - (n as real) * AngleDecay, 0.0)
            && (s.angle >= 0.0 ==> a >= 0.0) && (s.angle <= 0.0 ==> a <= 0.0)
    decreases n
  {
    if n > 0 {
      var t := Tick(s, screenWidth, screenHeight);
      assert t.angle == Lean(s).angle;
      RunLeanSettles(t, screenWidth, screenHeight, n - 1);
    }
  }

  /** From any angle inside the limits, 175 released ticks bring the rocket exactly upright. */
  lemma LeanUprightAfter175(s: Flight, screenWidth: real, screenHeight: real)
    requires !s.moveLeft && !s.moveRight
    requires -AngleLimit <= s.angle <= AngleLimit
    ensures Run(s, screenWidth, screenHeight, 175).angle == 0.0
  {
    RunLeanSettles(s, screenWidth, screenHeight, 175);
  }

  /** Holding left tilts by AngleStep per tick and saturates at -AngleLimit. */
  lemma {:induction false} RunHoldLeft(s: Flight, screenWidth: real, screenHeight: real, n: nat)
    requires s.moveLeft
    requires -AngleLimit <= s.angle <= AngleLimit
    ensures Run(s, screenWidth, screenHeight, n).angle == Max(s.angle - (n as real) * AngleStep, -AngleLimit)
    decreases n
  {
    if n > 0 {
      var t := Tick(s, screenWidth, screenHeight);
      assert t.angle == Max(s.angle - AngleStep, -AngleLimit);
      RunHoldLeft(t, screenWidth, screenHeight, n - 1);
    }
  }

  /** Holding left from upright reaches the limit at tick 117 and not before. */
  lemma HoldLeftSaturatesAt117(s: Flight, screenWidth: real, screenHeight: real)
    requires s.moveLeft && s.angle == 0.0
    ensures Run(s, screenWidth, screenHeight, 117).angle == -AngleLimit
    ensures Run(s, screenWidth, screenHeight, 116).angle > -AngleLimit
  {
    RunHoldLeft(s, screenWidth, screenHeight, 117);
    RunHoldLeft(s, screenWidth, screenHeight, 116);
  }

  /** Releasing a key after pressing it leaves the same flags as releasing it alone. */
  lemma PressThenRelease(s: Flight, k: Key)
    ensures ApplyKey(ApplyKey(s, KeyDown(k)), KeyUp(k)) == ApplyKey(s, KeyUp(k))
  {
  }
}

=== FILE: ManualGame.dfy ===
/**
 * The keyboard-driven jump-or-die game with coins. It shares the player,
 * obstacle and coin with the agent-driven variant but has its own collision
 * and coin rules, based on edges rather than on box overlap, and runs the
 * checks after the updates.
 */
module ManualGame {
  import opened Arena
  import opened Runner

  /** `random.randint(9, 25)` for coin velocities in this variant. */
  const CoinMinVelocity: int := 9
  /** The obstacle's first velocity is drawn from [6, 10]; later resets use [6, 12]. */
  const FirstObstacleMaxVelocity: int := 10

  /** The `random.randint` results one frame may draw, one per possible reset. */
  datatype Draws = Draws(obstacle: int, coin: int, collision: int, capture: int, pass: int)

  predicate DrawsInRange(d: Draws)
  {
    && ObstacleMinVelocity <= d.obstacle <= ObstacleMaxVelocity
    && ObstacleMinVelocity <= d.collision <= ObstacleMaxVelocity
    && ObstacleMinVelocity <= d.pass <= ObstacleMaxVelocity
    && CoinMinVelocity <= d.coin <= CoinMaxVelocity
    && CoinMinVelocity <= d.capture <= CoinMaxVelocity
  }

  /**
   * The two penalising conditions of `check_collision`, once the obstacle has
   * not been passed: the player stands no higher than the obstacle's top and
   * its right edge reached the obstacle, or the player is higher and the
   * obstacle's right edge is at most the player's left edge.
   */
  predicate Strikes(playerY: int, obstacleX: int)
  {
    || (playerY >= ObstacleY && PlayerX + PlayerWidth >= obstacleX)
    || (playerY < ObstacleY && obstacleX + ObstacleWidth <= PlayerX)
  }

  /**
   * What the edge rule penalises: a grounded player whose box touches or
   * overlaps the obstacle horizontally, or an airborne player exactly when the
   * obstacle's right edge coincides with the player's left edge.
   */
  lemma StrikesExactly(playerY: int, obstacleX: int)
    requires !Cleared(obstacleX)
    ensures Strikes(playerY, obstacleX) <==>
              || (playerY >= ObstacleY && obstacleX <= PlayerX + PlayerWidth)
              || (playerY < ObstacleY && obstacleX + ObstacleWidth == PlayerX)
  {
  }

  /**
   * The edge rule and box overlap disagree both ways: a player 40 pixels up
   * still overlaps an obstacle right below it yet is not penalised, and an
   * airborne player is penalised when the obstacle's right edge just touches
   * its left edge.
   */
  lemma StrikesDiffersFromOverlap()
    ensures HitsObstacle(Ground - 40, PlayerX) && !Cleared(PlayerX) && !Strikes(Ground - 40, PlayerX)
    ensures !HitsObstacle(Peak, PlayerX - ObstacleWidth) && !Cleared(PlayerX - ObstacleWidth)
            && Strikes(Peak, PlayerX - ObstacleWidth)
  {
  }

  /**
   * The capturing condition of `check_capture_coin`'s first branch, once the
   * coin has not been passed: the player's top is no lower than the coin's top
   * and its right edge reached the coin.
   */
  predicate Captures(playerY: int, coinX: int)
  {
    playerY <= CoinY && PlayerX + PlayerWidth >= coinX
  }

  /**
   * The second capturing branch of `check_capture_coin` (which adds a coin but
   * returns 0) never fires: whenever its condition holds the first branch's
   * condition holds too.
   */
  lemma SecondCaptureBranchDead(playerY: int, coinX: int)
    requires !(coinX + CoinWidth < PlayerX)
    requires playerY <= CoinY && coinX + CoinWidth <= PlayerX
    ensures Captures(playerY, coinX)
  {
  }

  /**
   * The obstacle after this variant's checks, which run after the updates: a
   * cleared obstacle is scored and respawned with the pass draw, a struck one
   * is respawned with the collision draw, any other is left alone.
   */
  function ObstacleAfterChecks(playerY: int, o: Mover, d: Draws): (r: Mover)
    ensures !r.passedPlayer || r == o
    ensures r == o <==> !Cleared(o.x) && !Strikes(playerY, o.x)
    ensures Cleared(o.x) ==> r == Respawn(d.pass)
    ensures !Cleared(o.x) && Strikes(playerY, o.x) ==> r == Respawn(d.collision)
  {
    if Cleared(o.x) then Respawn(d.pass)
    else if Strikes(playerY, o.x) then Respawn(d.collision)
    else o
  }

  /** The coin after the capture check: a coin not yet passed that the player captures respawns. */
  function CoinAfterCheck(playerY: int, c: Mover, nextVelocity: int): (r: Mover)
    ensures r == c || (r.x == ScreenWidth && r.velocity == nextVelocity)
    ensures !(c.x + CoinWidth < PlayerX) && Captures(playerY, c.x) ==> r == Respawn(nextVelocity)
    ensures !(!(c.x + CoinWidth < PlayerX) && Captures(playerY, c.x)) ==> r == c
  {
    if !(c.x + CoinWidth < PlayerX) && Captures(playerY, c.x) then Respawn(nextVelocity) else c
  }

  class Game {
    const obstacle: Obstacle
    const player: Player
    const coin: Coin
    var score: int
    var coins: int
    var errors: int

    predicate Valid()
      reads this, obstacle, player, coin
    {
      player.Valid() && obstacle.Valid() && coin.Valid() && coin.minVelocity == CoinMinVelocity
    }

    constructor (obstacleVelocity: int, coinVelocity: int)
      requires ObstacleMinVelocity <= obstacleVelocity <= FirstObstacleMaxVelocity
      requires CoinMinVelocity <= coinVelocity <= CoinMaxVelocity
      ensures Valid()
      ensures score == 0 && coins == 0 && errors == 0
      ensures player.State() == Standing()
      ensures obstacle.x == ScreenWidth && !obstacle.passedPlayer && coin.x == ScreenWidth
      ensures obstacle.velocity == obstacleVelocity && coin.velocity == coinVelocity
    {
      obstacle := new Obstacle(obstacleVelocity);
      player := new Player();
      coin := new Coin(CoinMinVelocity, coinVelocity);
      score, coins, errors := 0, 0, 0;
    }

    /** `reset`: zero score and errors, put the player on the ground, respawn the obstacle; coins stay. */
    method Reset(nextVelocity: int)
      requires Valid()
      requires ObstacleMinVelocity <= nextVelocity <= ObstacleMaxVelocity
      modifies this, player, obstacle
      ensures Valid()
      ensures score == 0 && errors == 0 && coins == old(coins)
      ensures player.y == Ground && player.isJumping == old(player.isJumping)
      ensures player.onGround == old(player.onGround) && player.jumpPeak == old(player.jumpPeak)
      ensures obstacle.x == ScreenWidth && obstacle.velocity == nextVelocity && !obstacle.passedPlayer
    {
      score := 0;
      errors := 0;
      player.y := Ground;
      obstacle.Reset(nextVelocity);
    }

    /** `check_collision`: 0.5 once passed; -5 with one more error and a respawn on a strike; else 0. */
    method CheckCollision(nextVelocity: int) returns (reward: real)
      requires Valid()
      requires ObstacleMinVelocity <= nextVelocity <= ObstacleMaxVelocity
      modifies this, obstacle
      ensures Valid()
      ensures score == old(score) && coins == old(coins)
      ensures Cleared(old(obstacle.x)) ==>
                reward == ClearedReward && errors == old(errors) && unchanged(obstacle)
      ensures !Cleared(old(obstacle.x)) && Strikes(player.y, old(obstacle.x)) ==>
                && reward == PenaltyCollision && errors == old(errors) + 1
                && obstacle.x == ScreenWidth && obstacle.velocity == nextVelocity && !obstacle.passedPlayer
      ensures !Cleared(old(obstacle.x)) && !Strikes(player.y, old(obstacle.x)) ==>
                reward == NoReward && errors == old(errors) && unchanged(obstacle)
    {
      var playerFinal := PlayerX + PlayerWidth;
      var obstacleFinal := obstacle.x + ObstacleWidth;
      if obstacleFinal < PlayerX {
        return ClearedReward;
      }
      if player.y >= ObstacleY && playerFinal >= obstacle.x {
        errors := errors + 1;
        obstacle.Reset(nextVelocity);
        return PenaltyCollision;
      }
      if player.y < ObstacleY && obstacleFinal <= PlayerX {
        errors := errors + 1;
        obstacle.Reset(nextVelocity);
        return PenaltyCollision;
      }
      return NoReward;
    }

    /**
     * `check_capture_coin`: 0 once the coin is passed; 20 with one more coin
     * and a respawned coin when captured; else 0. The source's second capturing
     * branch is unreachable (see SecondCaptureBranchDead), so the count rises
     * exactly when 20 is returned.
     */
    method CheckCaptureCoin(nextVelocity: int) returns (reward: int)
      requires Valid()
      requires CoinMinVelocity <= nextVelocity <= CoinMaxVelocity
      modifies this, coin
      ensures Valid()
      ensures score == old(score) && errors == old(errors)
      ensures !(old(coin.x) + CoinWidth < PlayerX) && Captures(player.y, old(coin.x)) ==>
                reward == CoinReward && coins == old(coins) + 1
                && coin.x == ScreenWidth && coin.velocity == nextVelocity
      ensures !(!(old(coin.x) + CoinWidth < PlayerX) && Captures(player.y, old(coin.x))) ==>
                reward == 0 && coins == old(coins) && unchanged(coin)
      ensures coins == old(coins) + 1 <==> reward == CoinReward
    {
      var playerFinal := PlayerX + PlayerWidth;
      var coinFinal := coin.x + CoinWidth;
      if coinFinal < PlayerX {
        return 0;
      }
      if player.y <= CoinY && playerFinal >= coin.x {
        coins := coins + 1;
        coin.Reset(nextVelocity);
        return CoinReward;
      }
      if player.y <= CoinY && coinFinal <= PlayerX {
        assert false;
      }
      return 0;
    }

    /** `check_pass`: an obstacle wholly left of the player scores one point and respawns. */
    method CheckPass(nextVelocity: int) returns (reward: int)
      requires Valid()
      requires ObstacleMinVelocity <= nextVelocity <= ObstacleMaxVelocity
      modifies this, obstacle
      ensures Valid()
      ensures errors == old(errors) && coins == old(coins)
      ensures Cleared(old(obstacle.x)) ==>
                && reward == PassReward && score == old(score) + 1
                && obstacle.x == ScreenWidth && obstacle.velocity == nextVelocity && !obstacle.passedPlayer
      ensures !Cleared(old(obstacle.x)) ==> reward == 0 && score == old(score) && unchanged(obstacle)
    {
      if obstacle.x + ObstacleWidth < PlayerX {
        score := score + 1;
        obstacle.passedPlayer := true;
        obstacle.Reset(nextVelocity);
        return PassReward;
      }
      return 0;
    }

    /**
     * One frame of the main loop: a space-bar press jumps, then the three
     * updates, then the three checks. Every counter grows by at most one, and
     * a collision and a pass are never both scored in the same frame.
     */
    method Frame(spacePressed: bool, d: Draws)
      requires Valid() && DrawsInRange(d)
      modifies this, player, obstacle, coin
      ensures Valid()
      ensures old(score) <= score <= old(score) + 1
      ensures old(errors) <= errors <= old(errors) + 1
      ensures old(coins) <= coins <= old(coins) + 1
      ensures (score - old(score)) + (errors - old(errors)) <= 1
      ensures Peak <= player.y <= Ground
      ensures player.State() ==
                Advance(if spacePressed then TryJump(old(player.State())) else old(player.State()))
      ensures var o := ScrollObstacle(old(obstacle.Snapshot()), d.obstacle);
              && obstacle.Snapshot() == ObstacleAfterChecks(player.y, o, d)
              && score == old(score) + (if Cleared(o.x) then 1 else 0)
              && errors == old(errors) + (if !Cleared(o.x) && Strikes(player.y, o.x) then 1 else 0)
      ensures var c := ScrollCoin(old(coin.Snapshot()), d.coin);
              && coin.Snapshot() == CoinAfterCheck(player.y, c, d.capture)
              && coins == old(coins) + (if !(c.x + CoinWidth < PlayerX) && Captures(player.y, c.x) then 1 else 0)
    {
      if spacePressed {
        player.Jump();
      }
      player.Update();
      obstacle.Update(d.obstacle);
      coin.Update(d.coin);
      var _ := CheckCollision(d.collision);
      var _ := CheckCaptureCoin(d.capture);
      var _ := CheckPass(d.pass);
    }
  }
}

=== FILE: RocketFlight.dfy ===
/**
 * The rocket's per-tick flight governor, as pure functions over a snapshot of
 * the rocket's fields. Each handler function models one `handle_*` method of
 * the `Rocket` class (the same code appears in the agent-driven and the
 * keyboard-driven copy); `Tick` runs them in the order `update` does.
 * Positions, speeds and the lean angle are exact reals.
 */
module RocketFlight {

  const SpeedUpFactor: real := 1.02
  const GravityDownFactor: real := 1.05
  const MaxSpeed: real := 5.0
  const DecelerationFactor: real := 0.965
  const AngleLimit: real := 35.0
  const AngleStep: real := 0.3
  const AngleDecay: real := 0.2
  /** Starting speed of a freshly built rocket (before its first ground reset). */
  const InitialSpeed: real := 0.7
  /** A growth factor is applied only below MaxSpeed, so speed can pass it by one factor at most. */
  const SpeedCeiling: real := MaxSpeed * GravityDownFactor

  /** Every field of a rocket; `angle` is the source's `noise_angle`. */
  datatype Flight = Flight(
    x: real, y: real, width: real, height: real,
    speed: real, defaultSpeed: real, angle: real,
    thrust: bool, startedThrust: bool, startedThrustOnDown: bool,
    winGravityDown: bool, requestDeceleration: bool, startDeceleration: bool,
    moveLeft: bool, moveRight: bool)

  /** Input events the keyboard-driven copy reacts to. */
  datatype Key = W | A | D | OtherKey
  datatype KeyEvent = KeyDown(key: Key) | KeyUp(key: Key) | OtherEvent

  function Abs(v: real): real { if v < 0.0 then -v else v }
  function Max(a: real, b: real): real { if a < b then b else a }
  function Min(a: real, b: real): real { if a < b then a else b }

  /** A rocket as the constructor leaves it. */
  function Initial(x: real, y: real, width: real, height: real, defaultSpeed: real): (r: Flight)
    ensures r.x == x && r.y == y && r.width == width && r.height == height
    ensures r.speed == InitialSpeed && r.defaultSpeed == defaultSpeed && r.angle == 0.0
    ensures !r.thrust && !r.moveLeft && !r.moveRight && !r.startedThrust && !r.startedThrustOnDown
    ensures !r.requestDeceleration && !r.startDeceleration && !r.winGravityDown
  {
    Flight(x, y, width, height, InitialSpeed, defaultSpeed, 0.0,
           false, false, false, false, false, false, false, false)
  }

  /** The y coordinate at which the rocket rests on the floor. */
  function Floor(s: Flight, screenHeight: real): real { screenHeight - s.height }

  /** Neither a pending deceleration request nor the thrust-on-down phase, or only one of them. */
  predicate Exclusive(s: Flight) { !(s.requestDeceleration && s.startedThrustOnDown) }

  /** Size and default speed are the same in both. */
  predicate SameBody(s: Flight, r: Flight)
  {
    r.width == s.width && r.height == s.height && r.defaultSpeed == s.defaultSpeed
  }

  // ---------------------------------------------------------------------------
  // Input adapters

  /** Discrete action codes of the agent-driven copy: 0 toggles thrust, 1 leans left, 2 leans right. */
  function ApplyAction(s: Flight, action: int): (r: Flight)
    ensures r == s.(thrust := r.thrust, moveLeft := r.moveLeft, moveRight := r.moveRight)
    ensures action == 0 ==> r.thrust == !s.thrust && !r.moveLeft && !r.moveRight
    ensures action == 1 ==> r.thrust == s.thrust && r.moveLeft && !r.moveRight
    ensures action == 2 ==> r.thrust == s.thrust && !r.moveLeft && r.moveRight
    ensures action != 0 && action != 1 && action != 2 ==> r == s
  {
    if action == 0 then s.(thrust := !s.thrust, moveRight := false, moveLeft := false)
    else if action == 1 then s.(moveLeft := true, moveRight := false)
    else if action == 2 then s.(moveRight := true, moveLeft := false)
    else s
  }

  /** Key events of the keyboard-driven copy: W, A, D press/release thrust, left, right. */
  function ApplyKey(s: Flight, e: KeyEvent): (r: Flight)
    ensures r == s.(thrust := r.thrust, moveLeft := r.moveLeft, moveRight := r.moveRight)
    ensures e.KeyDown? ==>
              && r.thrust == (s.thrust || e.key == W)
              && r.moveLeft == (s.moveLeft || e.key == A)
              && r.moveRight == (s.moveRight || e.key == D)
    ensures e.KeyUp? ==>
              && r.thrust == (s.thrust && e.key != W)
              && r.moveLeft == (s.moveLeft && e.key != A)
              && r.moveRight == (s.moveRight && e.key != D)
    ensures e.OtherEvent? ==> r == s
  {
    match e
    case KeyDown(k) =>
      if k == W then s.(thrust := true)
      else if k == A then s.(moveLeft := true)
      else if k == D then s.(moveRight := true)
      else s
    case KeyUp(k) =>
      if k == W then s.(thrust := false)
      else if k == A then s.(moveLeft := false)
      else if k == D then s.(moveRight := false)
      else s
    case OtherEvent => s
  }

  // ---------------------------------------------------------------------------
  // The seven handlers, in the order `update` runs them

  /** `reset_speed_on_ground`: exact equality with the floor restores the default speed. */
  function GroundReset(s: Flight, screenHeight: real): (r: Flight)
    ensures r == s.(speed := r.speed, startedThrustOnDown := r.startedThrustOnDown,
                    winGravityDown := r.winGravityDown, requestDeceleration := r.requestDeceleration)
    ensures s.y == Floor(s, screenHeight) ==>
              r.speed == s.defaultSpeed && !r.startedThrustOnDown && !r.winGravityDown && !r.requestDeceleration
    ensures s.y != Floor(s, screenHeight) ==> r == s
  {
    if s.y == screenHeight - s.height then
      s.(speed := s.defaultSpeed, startedThrustOnDown := false,
         winGravityDown := false, requestDeceleration := false)
    else s
  }

  /** `handle_deceleration`: after thrust is released the rocket keeps rising, slowing down. */
  function Decelerate(s: Flight): (r: Flight)
    ensures r == s.(speed := r.speed, y := r.y, requestDeceleration := r.requestDeceleration,
                    startDeceleration := r.startDeceleration)
    ensures !s.requestDeceleration ==> r == s
    ensures s.requestDeceleration && s.speed > s.defaultSpeed >= 0.0 ==>
              r.speed == s.speed * DecelerationFactor && 0.0 < r.speed < s.speed && r.y == s.y - r.speed
              && r.requestDeceleration && r.startDeceleration == s.startDeceleration
    ensures s.requestDeceleration && s.speed <= s.defaultSpeed ==>
              r.speed == s.speed && r.y == s.y && !r.requestDeceleration && r.startDeceleration
  {
    if s.requestDeceleration then
      if s.speed > s.defaultSpeed then
        var v := s.speed * DecelerationFactor;
        s.(speed := v, y := s.y - v)
      else
        s.(requestDeceleration := false, startDeceleration := true)
    else s
  }

  /** Whether `handle_gravity_down` acts at all: airborne, no thrust, no pending phase. */
  predicate Coasting(s: Flight, screenHeight: real)
  {
    s.y < Floor(s, screenHeight) && !s.thrust && !s.startedThrustOnDown && !s.requestDeceleration
  }

  /** `handle_gravity_down`: first request a deceleration, then (once it ended) fall, accelerating. */
  function FallUnderGravity(s: Flight, screenHeight: real): (r: Flight)
    ensures r == s.(y := r.y, speed := r.speed, requestDeceleration := r.requestDeceleration,
                    winGravityDown := r.winGravityDown, startedThrust := r.startedThrust)
    ensures !Coasting(s, screenHeight) ==> r == s
    ensures Coasting(s, screenHeight) && !s.startDeceleration ==> r == s.(requestDeceleration := true)
    ensures Coasting(s, screenHeight) && s.startDeceleration ==>
              r.y == s.y + s.speed && !r.winGravityDown && !r.startedThrust && !r.requestDeceleration
              && (s.speed < MaxSpeed ==> r.speed == s.speed * GravityDownFactor)
              && (s.speed >= MaxSpeed ==> r.speed == s.speed)
    ensures r.y != s.y ==> s.startDeceleration
  {
    if s.y < screenHeight - s.height && !s.thrust && !s.startedThrustOnDown && !s.requestDeceleration then
      if !s.startDeceleration then
        s.(requestDeceleration := true)
      else
        var v := if s.speed < MaxSpeed then s.speed * GravityDownFactor else s.speed;
        s.(winGravityDown := false, startedThrust := false, y := s.y + s.speed, speed := v)
    else s
  }

  /** `handle_thrust_on_down`: thrust during a fall first brakes the descent. */
  function BrakeDescent(s: Flight): (r: Flight)
    ensures r == s.(speed := r.speed, y := r.y, startedThrustOnDown := r.startedThrustOnDown,
                    winGravityDown := r.winGravityDown)
    ensures !s.startedThrustOnDown ==> r == s
    ensures s.startedThrustOnDown && s.speed > s.defaultSpeed >= 0.0 ==>
              r.speed == s.speed * DecelerationFactor && 0.0 < r.speed < s.speed && r.y == s.y + r.speed
              && r.startedThrustOnDown && r.winGravityDown == s.winGravityDown
    ensures s.startedThrustOnDown && s.speed <= s.defaultSpeed ==>
              r.speed == s.speed && r.y == s.y && !r.startedThrustOnDown && r.winGravityDown
  {
    if s.startedThrustOnDown then
      if s.speed > s.defaultSpeed then
        var v := s.speed * DecelerationFactor;
        s.(speed := v, y := s.y + v)
      else
        s.(startedThrustOnDown := false, winGravityDown := true)
    else s
  }

  /**
   * `handle_thrust`: climb by the current speed, accelerating. Unless gravity-down
   * has been won, which includes every take-off from the floor since the ground
   * reset clears it, it starts thrust-on-down and clears both deceleration flags.
   */
  function ThrustUp(s: Flight): (r: Flight)
    ensures r == s.(y := r.y, speed := r.speed, startedThrust := r.startedThrust,
                    requestDeceleration := r.requestDeceleration, startDeceleration := r.startDeceleration,
                    startedThrustOnDown := r.startedThrustOnDown)
    ensures !s.thrust || s.startedThrustOnDown ==> r == s
    ensures s.thrust && !s.startedThrustOnDown ==>
              r.y == s.y - s.speed && r.startedThrust
              && (s.speed < MaxSpeed ==> r.speed == s.speed * SpeedUpFactor)
              && (s.speed >= MaxSpeed ==> r.speed == s.speed)
    ensures s.thrust && !s.startedThrustOnDown && !s.winGravityDown ==>
              r.startedThrustOnDown && !r.requestDeceleration && !r.startDeceleration
    ensures s.winGravityDown ==>
              && r.startedThrustOnDown == s.startedThrustOnDown
              && r.requestDeceleration == s.requestDeceleration
              && r.startDeceleration == s.startDeceleration
  {
    if s.thrust && !s.startedThrustOnDown then
      var s1 := if !s.winGravityDown
                then s.(requestDeceleration := false, startDeceleration := false, startedThrustOnDown := true)
                else s;
      var v := if s.speed < MaxSpeed then s.speed * SpeedUpFactor else s.speed;
      s1.(startedThrust := true, y := s.y - s.speed, speed := v)
    else s
  }

  /** The lean angle after the held key is applied (before any decay). */
  function Banked(s: Flight): (a: real)
    ensures s.moveLeft ==> a == Max(s.angle - AngleStep, -AngleLimit)
    ensures !s.moveLeft && s.moveRight ==> a == Min(s.angle + AngleStep, AngleLimit)
    ensures !s.moveLeft && !s.moveRight ==> a == s.angle
  {
    if s.moveLeft then
      (if s.angle - AngleStep < -AngleLimit then -AngleLimit else s.angle - AngleStep)
    else if s.moveRight then
      (if s.angle + AngleStep > AngleLimit then AngleLimit else s.angle + AngleStep)
    else s.angle
  }

  /** `handle_horizontal_movement`: lean while a key is held, drift by the lean, decay when released. */
  function Lean(s: Flight): (r: Flight)
    ensures r == s.(angle := r.angle, x := r.x)
    ensures -AngleLimit <= s.angle <= AngleLimit ==> -AngleLimit <= r.angle <= AngleLimit
    ensures s.moveLeft || s.moveRight ==> r.angle == Banked(s)
    ensures !s.moveLeft && !s.moveRight ==>
              Abs(r.angle) == Max(Abs(s.angle) - AngleDecay, 0.0)
              && (s.angle >= 0.0 ==> r.angle >= 0.0) && (s.angle <= 0.0 ==> r.angle <= 0.0)
    ensures Banked(s) > 0.0 ==> r.x == s.x + Banked(s) / MaxSpeed
    ensures Banked(s) < 0.0 ==> r.x == s.x - Abs(Banked(s)) / MaxSpeed
    ensures Banked(s) == 0.0 ==> r.x == s.x
  {
    var a := Banked(s);
    var x := if a > 0.0 then s.x + Abs(a) / MaxSpeed
             else if a < 0.0 then s.x - Abs(a) / MaxSpeed
             else s.x;
    var decayed :=
      if !s.moveLeft && !s.moveRight then
        (if a > 0.0 then (if a - AngleDecay < 0.0 then 0.0 else a - AngleDecay)
         else if a < 0.0 then (if a + AngleDecay > 0.0 then 0.0 else a + AngleDecay)
         else a)
      else a;
    s.(angle := decayed, x := x)
  }

  /** One coordinate of `handle_boundary_conditions`. */
  function Clamp(v: real, hi: real): (r: real)
    ensures 0.0 <= hi ==> 0.0 <= r <= hi
    ensures 0.0 <= v <= hi ==> r == v
    ensures v < 0.0 ==> r == 0.0
    ensures 0.0 <= hi < v ==> r == hi
  {
    if v < 0.0 then 0.0 else if v > hi then hi else v
  }

  /** `handle_boundary_conditions`: keep the rocket on screen. */
  function Contain(s: Flight, screenWidth: real, screenHeight: real): (r: Flight)
    ensures r == s.(x := r.x, y := r.y)
    ensures s.width <= screenWidth ==> 0.0 <= r.x <= screenWidth - s.width
    ensures s.height <= screenHeight ==> 0.0 <= r.y <= Floor(s, screenHeight)
    ensures 0.0 <= s.x <= screenWidth - s.width ==> r.x == s.x
    ensures 0.0 <= s.y <= Floor(s, screenHeight) ==> r.y == s.y
    ensures 0.0 <= Floor(s, screenHeight) <= s.y ==> r.y == Floor(s, screenHeight)
  {
    s.(x := Clamp(s.x, screenWidth - s.width), y := Clamp(s.y, screenHeight - s.height))
  }

  /** The vertical handlers of `update` (ground reset through thrust), in order. */
  function Vertical(s: Flight, screenHeight: real): (r: Flight)
    ensures r.x == s.x && r.angle == s.angle && r.thrust == s.thrust
    ensures r.moveLeft == s.moveLeft && r.moveRight == s.moveRight && SameBody(s, r)
  {
    ThrustUp(BrakeDescent(FallUnderGravity(Decelerate(GroundReset(s, screenHeight)), screenHeight)))
  }

  /** `update`: the seven handlers in their fixed order. */
  function Tick(s: Flight, screenWidth: real, screenHeight: real): (r: Flight)
    ensures SameBody(s, r) && r.thrust == s.thrust
    ensures r.moveLeft == s.moveLeft && r.moveRight == s.moveRight
    ensures r.angle == Lean(s).angle
    ensures s.width <= screenWidth ==> 0.0 <= r.x <= screenWidth - s.width
    ensures s.height <= screenHeight ==> 0.0 <= r.y <= Floor(s, screenHeight)
    ensures -AngleLimit <= s.angle <= AngleLimit ==> -AngleLimit <= r.angle <= AngleLimit
  {
    Contain(Lean(Vertical(s, screenHeight)), screenWidth, screenHeight)
  }

  /** `n` consecutive calls of `update` with no input in between. */
  function Run(s: Flight, screenWidth: real, screenHeight: real, n: nat): Flight
    decreases n
  {
    if n == 0 then s else Run(Tick(s, screenWidth, screenHeight), screenWidth, screenHeight, n - 1)
  }
}

=== FILE: RocketReward.dfy ===
/**
 * The agent-driven rocket game's per-step reward: the Manhattan distance
 * between the target's and the rocket's rectangle centres, before and after
 * the tick, shaped into a reward with a bonus on reaching the target.
 */
module RocketReward {

  /** Starting reward is (RewardBase - distance) / RewardScale. */
  const RewardBase: int := 2000
  const RewardScale: real := 100.0
  const ReachedBonus: real := 100.0
  const MoveAwayPenalty: real := 1.0
  const RewardFloor: real := -10.0

  function IntAbs(v: int): nat { if v < 0 then -v else v }

  /** `calculate_distance_to_rocket`, over the two rectangles' integer centres. */
  function Distance(targetX: int, targetY: int, rocketX: int, rocketY: int): (d: int)
    ensures d >= 0
    ensures d == 0 <==> targetX == rocketX && targetY == rocketY
    ensures d >= IntAbs(targetX - rocketX) && d >= IntAbs(targetY - rocketY)
  {
    IntAbs(targetX - rocketX) + IntAbs(targetY - rocketY)
  }

  /**
   * The reward of one step, from the distance before and after the tick:
   * start at (2000 - before) / 100, lose 1 when the rocket moved away or gain
   * the hundredth of the distance it closed, add 100 when it reached the
   * target, and never go below -10.
   */
  function StepReward(before: int, after: int): (r: real)
    requires before >= 0 && after >= 0
    ensures r >= RewardFloor
    ensures after == 0 ==> r == 120.0
    ensures after > 0 ==> r < (RewardBase as real) / RewardScale
    ensures (r >= ReachedBonus) <==> after == 0
  {
    var start := (RewardBase - before) as real / RewardScale;
    var shaped := if after > before then start - MoveAwayPenalty
                  else start + (before - after) as real / RewardScale;
    var total := if after == 0 then shaped + ReachedBonus else shaped;
    if total < RewardFloor then RewardFloor else total
  }

  /**
   * When the rocket does not move away, the starting reward and the closing
   * bonus add up to a reward that depends on the new distance alone: the
   * starting distance cancels out.
   */
  lemma ClosingRewardDependsOnNewDistance(before: int, after: int)
    requires 0 < after <= before
    ensures var base := (RewardBase - after) as real / RewardScale;
            StepReward(before, after) == (if base < RewardFloor then RewardFloor else base)
  {
  }

  /** Moving away never earns more than staying put. */
  lemma AwayEarnsLess(before: int, after: int)
    requires 0 <= before < after
    ensures StepReward(before, after) <= StepReward(before, before)
  {
  }
}

=== FILE: Rockets.dfy ===
/**
 * The `Rocket` object: its fields are updated in place by one method per
 * handler, and `Update` runs the handlers in their fixed order. Each method is
 * proved to move the fields exactly as the matching `RocketFlight` function
 * says, so every law proved about those functions holds of the object.
 */
module Rockets {
  import opened RocketFlight
  import FlightLaws

  /** DEFAULT_SPEED of the agent-driven copy. */
  const AgentDefaultSpeed: real := 1.0
  /** DEFAULT_SPEED of the keyboard-driven copy. */
  const KeyboardDefaultSpeed: real := 0.05

  class Rocket {
    const width: real
    const height: real
    const defaultSpeed: real
    var x: real
    var y: real
    var speed: real
    var noiseAngle: real
    var thrust: bool
    var startedThrust: bool
    var startedThrustOnDown: bool
    var winGravityDown: bool
    var requestDeceleration: bool
    var startDeceleration: bool
    var moveLeft: bool
    var moveRight: bool

    /** The rocket's fields as a value. */
    function Snapshot(): Flight
      reads this
    {
      Flight(x, y, width, height, speed, defaultSpeed, noiseAngle,
             thrust, startedThrust, startedThrustOnDown, winGravityDown,
             requestDeceleration, startDeceleration, moveLeft, moveRight)
    }

    /** The rocket of the agent-driven game (DEFAULT_SPEED = 1). */
    constructor ForAgent(x0: real, y0: real, w: real, h: real)
      ensures Snapshot() == Initial(x0, y0, w, h, AgentDefaultSpeed)
    {
      width, height, defaultSpeed := w, h, AgentDefaultSpeed;
      x, y := x0, y0;
      speed := InitialSpeed;
      noiseAngle := 0.0;
      thrust, startedThrust, startedThrustOnDown, winGravityDown := false, false, false, false;
      requestDeceleration, startDeceleration, moveLeft, moveRight := false, false, false, false;
    }

    /** The rocket of the keyboard-driven game (DEFAULT_SPEED = 0.05). */
    constructor ForKeyboard(x0: real, y0: real, w: real, h: real)
      ensures Snapshot() == Initial(x0, y0, w, h, KeyboardDefaultSpeed)
    {
      width, height, defaultSpeed := w, h, KeyboardDefaultSpeed;
      x, y := x0, y0;
      speed := InitialSpeed;
      noiseAngle := 0.0;
      thrust, startedThrust, startedThrustOnDown, winGravityDown := false, false, false, false;
      requestDeceleration, startDeceleration, moveLeft, moveRight := false, false, false, false;
    }

    /** `handle_input` of the agent-driven copy: one action code per frame. */
    method HandleAction(action: int)
      modifies this
      ensures Snapshot() == ApplyAction(old(Snapshot()), action)
    {
      if action == 0 {
        thrust := !thrust;
        moveRight := false;
        moveLeft := false;
      }
      if action == 1 {
        moveLeft := true;
        moveRight := false;
      }
      if action == 2 {
        moveRight := true;
        moveLeft := false;
      }
    }

    /** `handle_input` of the keyboard-driven copy: one key event. */
    method HandleKeyEvent(e: KeyEvent)
      modifies this
      ensures Snapshot() == ApplyKey(old(Snapshot()), e)
    {
      match e {
        case KeyDown(k) =>
          if k == W { thrust := true; }
          if k == A { moveLeft := true; }
          if k == D { moveRight := true; }
        case KeyUp(k) =>
          if k == W { thrust := false; }
          if k == A { moveLeft := false; }
          if k == D { moveRight := false; }
        case OtherEvent =>
      }
    }

    method HandleGravityDown(screenHeight: real)
      modifies this
      ensures Snapshot() == FallUnderGravity(old(Snapshot()), screenHeight)
    {
      if y < screenHeight - height && !thrust && !startedThrustOnDown && !requestDeceleration {
        if !startDeceleration {
          requestDeceleration := true;
        } else {
          winGravityDown := false;
          startedThrust := false;
          y := y + speed;
          if speed < MaxSpeed {
            speed := speed * GravityDownFactor;
          }
        }
      }
    }

    method HandleThrust()
      modifies this
      ensures Snapshot() == ThrustUp(old(Snapshot()))
    {
      if thrust && !startedThrustOnDown {
        if !winGravityDown {
          requestDeceleration := false;
          startDeceleration := false;
          startedThrustOnDown := true;
        }
        startedThrust := true;
        y := y - speed;
        if speed < MaxSpeed {
          speed := speed * SpeedUpFactor;
        }
      }
    }

    method HandleDeceleration()
      modifies this
      ensures Snapshot() == Decelerate(old(Snapshot()))
    {
      if requestDeceleration {
        if speed > defaultSpeed {
          speed := speed * DecelerationFactor;
          y := y - speed;
        } else {
          requestDeceleration := false;
          startDeceleration := true;
        }
      }
    }

    method HandleThrustOnDown()
      modifies this
      ensures Snapshot() == BrakeDescent(old(Snapshot()))
    {
      if startedThrustOnDown {
        if speed > defaultSpeed {
          speed := speed * DecelerationFactor;
          y := y + speed;
        } else {
          startedThrustOnDown := false;
          winGravityDown := true;
        }
      }
    }

    method HandleHorizontalMovement()
      modifies this
      ensures Snapshot() == Lean(old(Snapshot()))
    {
      if moveLeft {
        noiseAngle := noiseAngle - AngleStep;
        if noiseAngle < -AngleLimit {
          noiseAngle := -AngleLimit;
        }
      } else if moveRight {
        noiseAngle := noiseAngle + AngleStep;
        if noiseAngle > AngleLimit {
          noiseAngle := AngleLimit;
        }
      }
      if noiseAngle > 0.0 {
        x := x + Abs(noiseAngle) / MaxSpeed;
      } else if noiseAngle < 0.0 {
        x := x - Abs(noiseAngle) / MaxSpeed;
      }
      if !moveLeft && !moveRight {
        if noiseAngle > 0.0 {
          noiseAngle := noiseAngle - AngleDecay;
          if noiseAngle < 0.0 {
            noiseAngle := 0.0;
          }
        } else if noiseAngle < 0.0 {
          noiseAngle := noiseAngle + AngleDecay;
          if noiseAngle > 0.0 {
            noiseAngle := 0.0;
          }
        }
      }
    }

    method HandleBoundaryConditions(screenWidth: real, screenHeight: real)
      modifies this
      ensures Snapshot() == Contain(old(Snapshot()), screenWidth, screenHeight)
    {
      if x < 0.0 {
        x := 0.0;
      } else if x > screenWidth - width {
        x := screenWidth - width;
      }
      if y < 0.0 {
        y := 0.0;
      } else if y > screenHeight - height {
        y := screenHeight - height;
      }
    }

    method ResetSpeedOnGround(screenHeight: real)
      modifies this
      ensures Snapshot() == GroundReset(old(Snapshot()), screenHeight)
    {
      if y == screenHeight - height {
        speed := defaultSpeed;
        startedThrustOnDown := false;
        winGravityDown := false;
        requestDeceleration := false;
      }
    }

    /**
     * `update`: one tick. Besides matching `Tick`, the rocket ends on screen,
     * its speed stays within the bound and the two deceleration phases stay
     * exclusive.
     */
    method Update(screenWidth: real, screenHeight: real)
      modifies this
      ensures Snapshot() == Tick(old(Snapshot()), screenWidth, screenHeight)
      ensures width <= screenWidth ==> 0.0 <= x <= screenWidth - width
      ensures height <= screenHeight ==> 0.0 <= y <= screenHeight - height
      ensures 0.0 < old(speed) && 0.0 < defaultSpeed <= SpeedCeiling ==>
                0.0 < speed <= Max(old(speed), SpeedCeiling)
      ensures Exclusive(old(Snapshot())) ==> Exclusive(Snapshot())
    {
      ghost var s0 := Snapshot();
      ResetSpeedOnGround(screenHeight);
      HandleDeceleration();
      HandleGravityDown(screenHeight);
      HandleThrustOnDown();
      HandleThrust();
      HandleHorizontalMovement();
      HandleBoundaryConditions(screenWidth, screenHeight);
      if 0.0 < s0.speed && 0.0 < defaultSpeed <= SpeedCeiling {
        FlightLaws.TickSpeedBound(s0, screenWidth, screenHeight);
      }
      if Exclusive(s0) {
        FlightLaws.TickKeepsExclusive(s0, screenWidth, screenHeight);
      }
    }
  }
}

=== FILE: Runner.dfy ===
/**
 * The player, obstacle and coin of the coin-collecting variants (the
 * agent-driven game with coins and the keyboard-driven game). Their code is the
 * same in both; only the velocity ranges the random draws use differ, and
 * those are constructor and method parameters here.
 */
module Runner {
  import opened Arena

  /** `random.randint(6, 12)`, the range every obstacle reset draws from. */
  const ObstacleMinVelocity: int := 6
  const ObstacleMaxVelocity: int := 12
  const CoinMaxVelocity: int := 25

  /** The horizontal state of an obstacle or a coin. */
  datatype Mover = Mover(x: int, velocity: int, passedPlayer: bool)

  /** `reset`: back at the right edge with the drawn velocity, not passed. */
  function Respawn(nextVelocity: int): Mover
  {
    Mover(ScreenWidth, nextVelocity, false)
  }

  /** `Obstacle.update`: scroll left, respawning once wholly past the left edge. */
  function ScrollObstacle(m: Mover, nextVelocity: int): (r: Mover)
    ensures r.x >= -ObstacleWidth
    ensures r == m.(x := m.x - m.velocity) || r == Respawn(nextVelocity)
    ensures m.x - m.velocity >= -ObstacleWidth ==> r == m.(x := m.x - m.velocity)
  {
    if m.x - m.velocity < -ObstacleWidth then Respawn(nextVelocity) else m.(x := m.x - m.velocity)
  }

  /** `Coin.update`: scroll left, respawning on reaching the left edge. */
  function ScrollCoin(m: Mover, nextVelocity: int): (r: Mover)
    ensures 0 < r.x && (0 <= m.velocity && m.x <= ScreenWidth ==> r.x <= ScreenWidth)
    ensures r == m.(x := m.x - m.velocity) || r == Respawn(nextVelocity)
    ensures m.x - m.velocity > 0 ==> r == m.(x := m.x - m.velocity)
  {
    if m.x - m.velocity <= 0 then Respawn(nextVelocity) else m.(x := m.x - m.velocity)
  }

  /** `jump`: leave the ground aiming 150 pixels up; a no-op while airborne. */
  function TryJump(p: Jumper): (r: Jumper)
    ensures !p.onGround ==> r == p
    ensures p.onGround ==> r.isJumping && !r.onGround && r.y == p.y && r.jumpPeak == p.y - JumpHeight
    ensures Sound(p) ==> Sound(r)
  {
    if p.onGround then p.(isJumping := true, jumpPeak := p.y - JumpHeight, onGround := false)
    else p
  }

  /** `update`: rise to the peak, then fall back and snap onto the ground. */
  function Advance(p: Jumper): (r: Jumper)
    ensures Sound(p) ==> Sound(r)
    ensures Sound(p) ==> r.y == p.y || r.y == p.y - PlayerVelocity || r.y == p.y + PlayerVelocity
    ensures p.isJumping && p.y > p.jumpPeak ==> r == p.(y := p.y - PlayerVelocity)
    ensures !p.isJumping && p.y >= Ground ==> r.onGround && r.y == Ground
  {
    if p.isJumping then
      if p.y > p.jumpPeak then p.(y := p.y - PlayerVelocity)
      else p.(isJumping := false)
    else if p.y < Ground then p.(y := p.y + PlayerVelocity)
    else p.(onGround := true, y := Ground)
  }

  /** `n` consecutive updates. */
  function AdvanceN(p: Jumper, n: nat): Jumper
    decreases n
  {
    if n == 0 then p else AdvanceN(Advance(p), n - 1)
  }

  lemma {:induction false} AdvanceNSplit(p: Jumper, m: nat, n: nat)
    ensures AdvanceN(p, m + n) == AdvanceN(AdvanceN(p, m), n)
    decreases m
  {
    if m > 0 {
      AdvanceNSplit(Advance(p), m - 1, n);
    }
  }

  /** Every state reached by updates stays between the peak and the ground. */
  lemma {:induction false} AdvanceNSound(p: Jumper, n: nat)
    requires Sound(p)
    ensures Sound(AdvanceN(p, n))
    decreases n
  {
    if n > 0 {
      AdvanceNSound(Advance(p), n - 1);
    }
  }

  /** Rising k steps of 10 pixels reaches the peak, still jumping. */
  lemma {:induction false} Rise(p: Jumper, k: nat)
    requires p.isJumping && p.y == p.jumpPeak + PlayerVelocity * k
    ensures AdvanceN(p, k) == p.(y := p.jumpPeak)
    decreases k
  {
    if k > 0 {
      Rise(Advance(p), k - 1);
    }
  }

  /** Falling k steps of 10 pixels reaches the ground, not yet resting on it. */
  lemma {:induction false} Descend(p: Jumper, k: nat)
    requires !p.isJumping && p.y == Ground - PlayerVelocity * k
    ensures AdvanceN(p, k) == p.(y := Ground)
    decreases k
  {
    if k > 0 {
      Descend(Advance(p), k - 1);
    }
  }

  /**
   * A jump from the ground takes 15 updates up, one turning at the peak, 15
   * down and one landing: after 32 updates the player rests on the ground again.
   */
  lemma JumpLands(p: Jumper)
    requires Sound(p) && p.onGround
    ensures var q := AdvanceN(TryJump(p), 32);
            q.y == Ground && q.onGround && !q.isJumping
  {
    var j := TryJump(p);
    assert j.y == Ground && j.jumpPeak == Peak;
    Rise(j, 15);
    var top := AdvanceN(j, 15);
    var turned := Advance(top);
    assert turned == AdvanceN(top, 1);
    assert turned.y == Peak && !turned.isJumping;
    Descend(turned, 15);
    var down := AdvanceN(turned, 15);
    assert Advance(down) == AdvanceN(down, 1);
    AdvanceNSplit(j, 15, 1);
    AdvanceNSplit(j, 16, 15);
    AdvanceNSplit(j, 31, 1);
  }

  class Player {
    var y: int
    var isJumping: bool
    var jumpPeak: int
    var onGround: bool

    function State(): Jumper
      reads this
    {
      Jumper(y, isJumping, jumpPeak, onGround)
    }

    predicate Valid()
      reads this
    {
      Sound(State())
    }

    /** The source sets `jump_peak` only in `jump`; here it starts at the peak, unread until then. */
    constructor ()
      ensures State() == Standing() && Valid()
    {
      y, isJumping, jumpPeak, onGround := Ground, false, Peak, true;
    }

    method Jump()
      requires Valid()
      modifies this
      ensures Valid()
      ensures State() == TryJump(old(State()))
    {
      if onGround {
        isJumping := true;
        jumpPeak := y - JumpHeight;
        onGround := false;
      }
    }

    method Update()
      requires Valid()
      modifies this
      ensures Valid()
      ensures State() == Advance(old(State()))
    {
      if isJumping {
        if y > jumpPeak {
          y := y - PlayerVelocity;
        } else {
          isJumping := false;
        }
      } else if y < Ground {
        y := y + PlayerVelocity;
      } else {
        onGround := true;
        y := Ground;
      }
    }
  }

  class Obstacle {
    var x: int
    var velocity: int
    var passedPlayer: bool

    function Snapshot(): Mover
      reads this
    {
      Mover(x, velocity, passedPlayer)
    }

    predicate Valid()
      reads this
    {
      ObstacleMinVelocity <= velocity <= ObstacleMaxVelocity && x >= -ObstacleWidth
    }

    /** Enters at the right edge; `initialVelocity` is the constructor's random draw. */
    constructor (initialVelocity: int)
      requires ObstacleMinVelocity <= initialVelocity <= ObstacleMaxVelocity
      ensures Valid() && x == ScreenWidth && velocity == initialVelocity && !passedPlayer
    {
      x := ScreenWidth;
      velocity := initialVelocity;
      passedPlayer := false;
    }

    /** `reset`: back to the right edge with a fresh velocity `nextVelocity` in [6, 12]. */
    method Reset(nextVelocity: int)
      requires ObstacleMinVelocity <= nextVelocity <= ObstacleMaxVelocity
      modifies this
      ensures Valid() && Snapshot() == Respawn(nextVelocity)
    {
      x := ScreenWidth;
      velocity := nextVelocity;
      passedPlayer := false;
    }

    /** `update`: scroll left; once wholly past the left edge, reset with `nextVelocity`. */
    method Update(nextVelocity: int)
      requires Valid()
      requires ObstacleMinVelocity <= nextVelocity <= ObstacleMaxVelocity
      modifies this
      ensures Valid()
      ensures old(x) - old(velocity) >= -ObstacleWidth ==>
                x == old(x) - old(velocity) && velocity == old(velocity) && passedPlayer == old(passedPlayer)
      ensures old(x) - old(velocity) < -ObstacleWidth ==>
                x == ScreenWidth && velocity == nextVelocity && !passedPlayer
      ensures Snapshot() == ScrollObstacle(old(Snapshot()), nextVelocity)
    {
      x := x - velocity;
      if x < -ObstacleWidth {
        Reset(nextVelocity);
      }
    }
  }

  class Coin {
    /** Lower end of the coin's velocity draws: 16 with the agent, 9 with the keyboard. */
    const minVelocity: int
    var x: int
    var velocity: int
    var passedPlayer: bool

    function Snapshot(): Mover
      reads this
    {
      Mover(x, velocity, passedPlayer)
    }

    /** `passed_player` is only ever assigned false, so it stays false. */
    predicate Valid()
      reads this
    {
      0 < minVelocity <= velocity <= CoinMaxVelocity && 0 < x <= ScreenWidth && !passedPlayer
    }

    constructor (lowest: int, initialVelocity: int)
      requires 0 < lowest <= initialVelocity <= CoinMaxVelocity
      ensures Valid() && minVelocity == lowest
      ensures x == ScreenWidth && velocity == initialVelocity
    {
      minVelocity := lowest;
      x := ScreenWidth;
      velocity := initialVelocity;
      passedPlayer := false;
    }

    /** `reset`: back to the right edge with a fresh velocity `nextVelocity`. */
    method Reset(nextVelocity: int)
      requires 0 < minVelocity <= nextVelocity <= CoinMaxVelocity
      modifies this
      ensures Valid() && Snapshot() == Respawn(nextVelocity)
    {
      x := ScreenWidth;
      velocity := nextVelocity;
      passedPlayer := false;
    }

    /** `update`: scroll left; on reaching the left edge, reset with `nextVelocity`. */
    method Update(nextVelocity: int)
      requires Valid() && minVelocity <= nextVelocity <= CoinMaxVelocity
      modifies this
      ensures Valid()
      ensures 0 < x <= ScreenWidth
      ensures old(x) - old(velocity) > 0 ==> x == old(x) - old(velocity) && velocity == old(velocity)
      ensures old(x) - old(velocity) <= 0 ==> x == ScreenWidth && velocity == nextVelocity
      ensures Snapshot() == ScrollCoin(old(Snapshot()), nextVelocity)
    {
      x := x - velocity;
      if x <= 0 {
        Reset(nextVelocity);
      }
    }
  }
}
